=== FILE: README.md ===
# YaMDb API core in Dafny

This project models the core of YaMDb, a review platform built on Django and Django REST
Framework. Users register with an email and get a confirmation code by mail. They exchange
the code for a JSON Web Token. With that token they read titles, which are grouped into
categories and genres. They review a title with a score from 0 to 10, and they comment on
reviews. Moderators and administrators can change anybody's reviews and comments.
Administrators manage the catalogue and the users.

The model is organised by the repository's modules:

- `models.dfy` (module `Models`):
  - the user row and its roles, with `is_admin` and `is_moderator`;
  - the score bounds;
  - the tables as maps from primary key to row;
  - the database invariants: unique usernames, linked foreign keys, one review per author
    and title;
  - what each `on_delete` rule does to the store.
- `validators.dfy` (module `Validators`): `validate_year`. The current year is a parameter.
- `permissions.dfy` (module `Permissions`): the four permission classes, as predicates over
  the HTTP method, the caller and the object's author. They are combined with the
  framework's `IsAuthenticatedOrReadOnly` the way the view sets combine them.
- `serializers.dfy` (module `Serializers`):
  - the field rules that the serializers draw from the model columns (required, blank,
    maximum length, unique, choices, validators), applied, as the framework's text fields
    do, to the input without its surrounding white space, which is also the value saved,
    and with the framework's refusal of null characters (U+0000) in text;
  - `ReviewSerializer.validate`.
- `views.dfy` (module `Views`):
  - `create_user` (get-or-create by email, rename, mail), as written (`Register`) and with its
    writes in one transaction (`RegisterAtomic`, which the endpoint and class `Api` use; see
    Findings);
  - `get_token`;
  - the review and comment querysets and `perform_create`;
  - `patch_me`;
  - `TitleViewSet.get_serializer_class`;
  - class `Api`, which holds the tables, the key counters and the outbox of sent mail.
- `responses.dfy` (module `Responses`) and `wrappers.dfy` (module `Wrappers`): how failures
  map to HTTP status codes, and `Option`/`Result`.

Each endpoint is a function from the store and the request to the new store and the reply.
Examples are `Views.CreateUserStep`, `Views.CreateReviewStep` and `Views.SelfUpdate`. The
methods of class `Api` make the same writes step by step, and their `ensures` tie them to
those functions. Lookups change nothing, so they are functions of the tables (for example
`Views.GetToken`).

A request passes through these stages in the framework's order:

1. field validation;
2. the serializer's `validate`;
3. `perform_create` and its `get_object_or_404`.

A field error is answered before a missing title, and a missing title before a duplicate
review.

## Model

| member | source | states |
|---|---|---|
| Responses.StatusOf | api/views.py:70-127 | 400 exactly for validation errors, 404 exactly for a missing object; every exception that escapes a view (integrity error, several rows, mail failure) is a 500 |
| Models.ParseRole | api/models.py:8-16 | a submitted role is accepted exactly when it is one of the three stored values, and then it is that role |
| Models.RoleValueRoundTrip | api/models.py:8-11 | every role read back from its stored value is the same role |
| Models.RoleValue | api/models.py:8-11 | the value stored for each role: `admin`, `moderator`, `user` |
| Models.IsAdmin | api/models.py:26-28 | `is_admin`: the admin role or a superuser |
| Models.IsModerator | api/models.py:30-32 | `is_moderator`: the moderator role |
| Models.NewUser | api/models.py:14-18 | a user inserted with only an email has a blank username and code, the plain role, and is neither admin nor moderator |
| Models.AdminExactly | api/models.py:26-28 | `is_admin` holds exactly for the admin role or a superuser |
| Models.ModeratorIsNotAdmin | api/models.py:30-32 | `is_moderator` is the moderator role only; a moderator who is also an admin is a superuser |
| Models.DeleteCategory | api/models.py:62-65 | SET_NULL: the category goes, every title stays, the titles that pointed to it lose their category and nothing else changes |
| Models.DeleteGenre | api/models.py:66-68 | the genre goes, and every title stays with its other genres; nothing else changes |
| Models.DeleteReview | api/models.py:95-96 | CASCADE: the review and exactly its comments go; nothing else changes |
| Models.DeleteTitle | api/models.py:80-81 | CASCADE: the title, exactly its reviews and the comments under them go |
| Models.DeleteUser | api/models.py:83-84 | CASCADE: the user, their reviews, their comments and the comments under their reviews go; other rows stay unchanged |
| Models.LinkedWithMoreUsers | api/models.py:79-96 | adding or changing user rows without removing any keeps every foreign key resolvable |
| Models.LinkedWithNewComment | api/models.py:92-96 | a comment on an existing review by an existing user keeps every foreign key resolvable |
| Models.DeleteCategoryKeepsLinks | api/models.py:62-65 | after deleting a category no title points to a missing category |
| Models.DeleteGenreKeepsLinks | api/models.py:66-68 | after deleting a genre no title points to a missing genre |
| Models.DeleteReviewKeepsLinks | api/models.py:95-96 | after deleting a review no comment dangles |
| Models.DeleteTitleKeepsLinks | api/models.py:80-81 | after deleting a title no review or comment dangles |
| Models.DeleteUserKeepsLinks | api/models.py:83-96 | after deleting a user no review or comment dangles |
| Models.DeletesKeepReviewInvariants | api/models.py:79-89 | deletions keep every score within 0..10 and at most one review per title and author |
| Serializers.TrimBlankExactlyWhenAllSpace | api/serializers.py:41-63 | a text field's trimmed value is blank exactly when the input is white space only |
| Serializers.TrimHasNoOuterSpace | api/serializers.py:41-63 | the value a text field keeps is no longer than the input and neither starts nor ends with white space |
| Serializers.TrimIdempotent | api/serializers.py:41-63 | trimming a trimmed value changes nothing, so a saved value validates to itself |
| Validators.ValidateYear | api/validators.py:6-10 | a year is refused, with the validator's message, exactly when it is after the current year |
| Validators.RejectsExactlyFutureYears | api/validators.py:8-10 | the same both ways: accepted iff not in the future |
| Validators.CurrentYearAccepted | api/validators.py:8 | the current year itself is accepted |
| Validators.AcceptedYearsDownwardClosed | api/validators.py:6-10 | a year accepted now stays accepted in later years, and every earlier year is accepted too |
| Permissions.AuthoredObjectAccess | api/views.py:28-58 | on reviews and comments an anonymous caller may only read; an authenticated caller passes exactly when the object-level policy allows |
| Permissions.CatalogAccess | api/views.py:156-186 | categories, genres and titles: reads always pass, writes only for an authenticated admin |
| Permissions.UserAdminAccess | api/views.py:130-133 | the user administration endpoints pass exactly for an authenticated admin or superuser, whatever the method |
| Permissions.IsOwnerOrReadOnly | api/permissions.py:4-8 | safe methods, or the caller is the object's author |
| Permissions.UserAdministrator | api/permissions.py:11-13 | a superuser or an admin, whatever the method |
| Permissions.UserAdministratorOrReadOnly | api/permissions.py:16-19 | safe methods, or an admin |
| Permissions.OwnerAdministratorOrModeratorOrReadOnly | api/permissions.py:22-29 | safe methods, or an admin, a moderator or the author |
| Permissions.IsAuthenticatedOrReadOnly | api/views.py:30 | the framework class the view sets put first: safe methods, or an authenticated requester |
| Permissions.OwnerOrReadOnlyRule | api/permissions.py:4-8 | safe methods pass; any other exactly for the author |
| Permissions.AdministratorIgnoresMethod | api/permissions.py:11-13 | the decision does not depend on the method and is exactly `is_admin` |
| Permissions.AdministratorOrReadOnlyRule | api/permissions.py:16-19 | safe methods pass; any other exactly for an admin |
| Permissions.ModeratedRule | api/permissions.py:22-29 | safe methods pass; any other exactly for an admin, a moderator or the author |
| Permissions.OwnerPolicyWeakerThanModerated | api/permissions.py:4-29 | whatever the owner policy allows, the moderated policy allows too |
| Permissions.AdminPassesAdminAwarePolicies | api/permissions.py:11-29 | an admin passes `UserAdministrator`, `UserAdministratorOrReadOnly` and `OwnerAdministratorOrModeratorOrReadOnly`, and so the review, comment, catalogue and user-administration chains, for every method and object; `IsOwnerOrReadOnly` is not among them, as it lets only the author write |
| Permissions.ModeratorReach | api/permissions.py:16-29 | a moderator who is not a superuser may change any review or comment, but not the catalogue or the users |
| Permissions.RegularUserReach | api/permissions.py:4-29 | a plain user writes only what they authored, reads everything and administers nothing |
| Serializers.CharFieldError | api/serializers.py:41-63 | a text field, trimmed first, passes exactly when it is present or optional, blank after trimming only where blank is allowed, and its trimmed value fits the column and holds no null character; a too-long value is reported before a null character |
| Serializers.UserCreationFields | api/serializers.py:51-55 | registration needs an email whose trimmed value has at most 254 characters and no null character, and passes on that trimmed value; otherwise the only error is on `email` |
| Serializers.UserTokenFields | api/serializers.py:58-63 | the exchange passes exactly when both email and code are given and their trimmed values fit 254 and 32 characters without a null character, and it passes on the trimmed values; a missing one is reported as required on its own key |
| Serializers.UsernameError | api/serializers.py:46 | a username passes exactly when it is given (or the update is partial) and its trimmed value is not blank, at most 150 characters, free of null characters and not another user's |
| Serializers.EmailError | api/serializers.py:47-48 | an email passes exactly when it is given (or partial), its trimmed value fits 254 characters with no null character and, unless blank, is no other user's |
| Serializers.RoleError | api/serializers.py:44-45 | a role passes exactly when absent or one of the three choices |
| Serializers.ValidateUser | api/serializers.py:41-48 | accepted exactly when username, email, names, bio and role each pass their rule; username and email required unless partial; accepted data is the trimmed input, with the role parsed; an accepted username or non-blank email belongs to no other user; a refusal carries at least one field error |
| Serializers.ValidatedUserKeepsUniqueness | api/serializers.py:41-48 | writing accepted data to a user row keeps usernames and non-blank emails unique |
| Serializers.TextError | api/models.py:82 | a review or comment text passes exactly when given, not blank after trimming and free of null characters |
| Serializers.ScoreError | api/models.py:86-87 | a score passes exactly when given and within 0..10 |
| Serializers.ReviewFields | api/models.py:82-87 | a review's fields pass exactly when the trimmed text is non-blank without a null character and the score in range, and pass on the trimmed text; an out-of-range score is reported on `score` |
| Serializers.ValidateReview | api/serializers.py:28-38 | PATCH passes; otherwise 404 without the title, the non-field error when the caller already reviewed it, and the data unchanged when accepted |
| Serializers.PutByAuthorRejected | api/serializers.py:28-38 | a PUT by a review's own author is always refused, because the check finds their own review |
| Serializers.ValidatedReviewKeepsOnePerPair | api/serializers.py:18-38 | inserting a review that passed the check keeps at most one review per title and author |
| Serializers.HasReviewBy | api/serializers.py:34-35 | the caller already has a review of the title: some review row has that title and that author |
| Serializers.CommentFields | api/serializers.py:9-15 | a comment's text is required, not blank after trimming and free of null characters, and passes trimmed; errors are on `text` only |
| Views.OrmGet | api/views.py:107-111 | `get` finds a row exactly when one matches, reports none for no match and fails for several |
| Views.OrmGetOfUniqueRow | api/views.py:107-110 | a filter matching one row and nothing else finds that row |
| Views.Register | api/views.py:78-81 | get_or_create then save: keys only grow, by at most the new one; failures are only MultipleObjectsReturned (nothing written) or IntegrityError |
| Views.RegisterBindsCode | api/views.py:78-81 | after a successful registration exactly one user has the email, with username the email and the new code |
| Views.RegisterKeepsOtherUsers | api/views.py:78-81 | users with other emails are untouched, and registration never changes a role or grants superuser |
| Views.RegisterKeepsUniqueness | api/views.py:78-81 | registration keeps usernames and non-blank emails unique |
| Views.RegisterExisting | api/views.py:78-81 | with one user holding the email, registration renames that user and inserts nothing |
| Views.RegisterInserting | api/views.py:78-81 | with no user holding the email, registration inserts a row with only the email, then renames it |
| Views.FailedRenameLeavesBlankRow | api/views.py:78-81 | as written, when another user already has the email as username, registration fails with an integrity error and keeps the inserted row, whose username and code are blank |
| Views.OrphanRowOpensWithBlankCredentials | api/views.py:78-81 | as written, that leftover row gets a token for a blank email and a blank code |
| Views.OrphanRowBlocksRegistration | api/views.py:78-81 | as written, after that failure every registration of an email nobody has fails with an integrity error and writes nothing |
| Views.RegisterAtomic | api/views.py:78-81 | the registration in one transaction: the same outcome as written, the written table on success and the unchanged table on failure |
| Views.AtomicRegistrationLeavesNoBlankUsername | api/views.py:78-81 | in one transaction, registering a non-blank email keeps a store without blank usernames free of them, whether it passes or fails |
| Views.AtomicFailureBlocksNothing | api/views.py:78-81 | in one transaction, after a refused registration an email nobody has, that is nobody's username, still registers |
| Views.Rename | api/views.py:79-81 | saving username and code succeeds exactly when no other user holds the username, and leaves the email index unchanged |
| Views.GetUserByEmail | api/views.py:78 | the computed lookup agrees with `get` on the email filter |
| Views.RegisterRows | api/views.py:78-81 | the step-by-step writes produce exactly the registration outcome, with the key counter advanced by at most one |
| Views.CreateUserStep | api/views.py:72-95 | 400 exactly for invalid input (nothing written); otherwise the table is exactly what registration of the trimmed email in one transaction leaves, and 201 exactly when registration succeeded and the mail was delivered, with exactly one mail carrying the code to that address; otherwise 500 with no mail |
| Views.CreatedUserHoldsCode | api/views.py:72-95 | a 201 means the mail was delivered and the trimmed email names exactly one user, who holds the mailed code |
| Views.RegisterReusesExistingUser | api/views.py:78 | registering a known email reuses its user: no new row, others unchanged |
| Views.GetTokenAsWritten | api/views.py:100-127 | field errors exactly for invalid input, and then exactly the serializer's errors; a token only for the user whose username and code equal the trimmed email and code; with unique usernames never a 500, and a token exactly when such a user exists |
| Views.BlankCodeIssuesToken | api/views.py:106-127 | as written, any user with a blank code gets a token for a blank code |
| Views.GetToken | api/views.py:100-127 | the exchange with blank codes refused: a token needs a code that is not blank after trimming; field errors as the serializer reports them; for any other code it answers as written |
| Views.CodeOpensOnlyItsAccount | api/views.py:106-127 | a user's non-blank code opens their account and no code that does not trim to it does; such a code that passes the fields finds no user |
| Views.HexCodeIsTrimmed | api/views.py:76 | a `uuid4().hex` code has no surrounding white space and fits the 32-character column without a null character, so it passes the token serializer unchanged |
| Views.RegisteredCodeIsTheOnlyKey | api/views.py:72-127 | after registering, the mailed code yields a token for the registered user and every other code is refused |
| Views.RegisteringTwiceRotatesCode | api/views.py:72-127 | registering again invalidates the previous code and the new one works |
| Views.RegistrationKeepsInvariant | api/views.py:78-81 | registration in one transaction keeps every database invariant, with the user counter above every key |
| Views.ReviewCreationKeepsInvariant | api/views.py:65-67 | creating a review keeps every database invariant, with the review counter above every key |
| Views.CommentCreationKeepsInvariant | api/views.py:42-50 | creating a comment keeps every database invariant, with the comment counter above every key |
| Views.ReviewQueryset | api/views.py:61-63 | 404 exactly when the title is missing; otherwise exactly the title's reviews |
| Views.CommentQueryset | api/views.py:33-40 | 404 unless the review exists under the path's title; otherwise exactly its comments |
| Views.CommentsListedBelongToPathTitle | api/views.py:33-40 | every listed comment hangs, through its review, from the path's title |
| Views.CreateReviewStep | api/views.py:65-67 | a review is created exactly when the fields pass, the title exists and the caller has no review of it; it is stored with the trimmed text, the caller as author and the path's title; invalid fields are answered with exactly their field errors, before any 404; failures change nothing |
| Views.CreateReviewKeepsInvariants | api/views.py:65-67 | creating a review keeps scores in range, one review per title and author, and every foreign key resolvable |
| Views.SecondReviewRefused | api/serializers.py:32-36 | a caller's second review of a title is refused with the non-field error |
| Views.CreateCommentStep | api/views.py:42-50 | a comment is created exactly when its text passes and the review exists under the path's title; invalid text is answered with exactly its field errors, before any 404; 404 otherwise; stored with the trimmed text and the caller as author |
| Views.CreateCommentIsListed | api/views.py:33-50 | a created comment appears in its path's listing, beside the earlier ones, and the store stays linked |
| Views.ApplyUserFields | api/views.py:143-149 | a partial save replaces exactly the given fields (username, email, names, bio, role) and keeps the rest; the superuser flag and the code never change |
| Views.SelfUpdateAsWritten | api/views.py:143-153 | as written: accepted exactly when the partial validation accepts the input, and then the caller's row becomes the validated fields applied to it, a submitted role included; a refusal carries the validation's errors and leaves the table unchanged |
| Views.SelfPromotion | api/views.py:143-153 | as written, any caller who patches their role to "admin" becomes an admin |
| Views.SelfUpdate | api/views.py:143-153 | the update with the role read-only: accepted exactly when the input without its role validates, and then the caller's row becomes those fields applied to it; a refusal carries the validation's errors; their role, superuser flag and admin/moderator status stay as they were |
| Views.SelfUpdateKeepsUniqueness | api/views.py:143-153 | the self-service update keeps usernames and non-blank emails unique |
| Views.TitleSerializerFor | api/views.py:188-191 | the read serializer exactly for list and retrieve; the write serializer for every other action |
| Views.Api.constructor | api/models.py:14-99 | an empty store satisfies every invariant |
| Views.Api.CreateUser | api/views.py:72-95 | the store and outbox change exactly as the registration step says; other tables stay; the user counter advances exactly when registration inserted its key; invariants kept |
| Views.Api.SaveRegistration | api/views.py:78-81 | the user table changes exactly as registration in one transaction says: as written on success, not at all on failure; the user counter advances exactly when a row was inserted; invariants kept |
| Views.Api.CreateReview | api/views.py:65-67 | the store changes exactly as the review step says; the review counter advances by one exactly on success; invariants kept |
| Views.Api.CreateComment | api/views.py:42-50 | the store changes exactly as the comment step says; the comment counter advances by one exactly on success; invariants kept |
| Views.Api.PatchMe | api/views.py:143-153 | the user table changes exactly as the read-only-role update says; invariants kept |

## Left out

- Serializers.UserCreationFields: the email format (the `EmailField` validator) is not
  checked. "abc" passes here, where the serializer answers 400 "Enter a valid email
  address.".
- Serializers.UserTokenFields: the email format is not checked; any trimmed email of at most
  254 characters without a null character passes.
- Serializers.EmailError: the email format is not checked; the rules are the length, the
  null character, blankness and uniqueness.
- Serializers.UsernameError: the username character rule of the user model (the pattern
  `^[\w.@+-]+\Z`: Unicode letters, digits and `_.@+-`) is not checked; a username such as
  "a b" passes here and is refused by the serializer.
- Serializers.ValidateUser: neither the email format nor the username character rule is
  checked, as for `EmailError` and `UsernameError`.
- Serializers.CharFieldError: a JSON `null` ("This field may not be null.") cannot be
  written as an `Option<string>` input, so that refusal is not modelled; a missing field is
  `None`.
- Serializers.TextError: as for `CharFieldError`, a JSON `null` text is not modelled.
- Serializers.ScoreError: a score that is not an integer (`score=abc`, answered "A valid
  integer is required.") cannot be written as an `Option<int>` input, so that refusal is not
  modelled; nor is the parsing of the submitted text into a number.
- `create_user` and `get_token` read `request.POST` (api/views.py:73, 101), which holds
  form-encoded data only. A JSON body therefore reaches the serializer with every field
  missing and is answered 400 "required". The model's `Option` inputs stand for the form
  fields; the content type of the request is not modelled.
- `Failure.Invalid` keeps one message per field: the first rule the field breaks. The
  framework reports, per field, a list of every failing validator.
- The confirmation code and time are not generated. `uuid4` is a parameter of
  `Api.CreateUser` and of `CreateUserStep`. The clock behind `validate_year` is the
  `currentYear` parameter.
- Mail transport is left out: the mail subject and sender come from settings and are not
  modelled. Whether the transport delivers is the `mailDelivers` parameter. A delivered mail
  is appended to `Api.outbox`.
- Views.GetToken: the JSON Web Token is not modelled. Signing, expiry and the refresh token
  are replaced by `Issued(holder)`, which names the user the token is bound to. The `save()`
  that follows a successful lookup changes no field and is omitted.
- The title rating (`Avg` of scores) is not modelled. Neither are the title filters, the
  name search on categories and genres, and the username search on users.
- The category, genre and title create/list/delete endpoints and the user administration
  endpoints are generic framework views and are not modelled. Their access rules are
  modelled as `CatalogAccess` and `UserAdminAccess`.
- Review and comment update and delete are not modelled beyond `ValidateReview` (PATCH
  and PUT) and the permission predicates. `pub_date` is omitted.
- Primary keys are assigned from one counter per table (`nextUserPk`, `nextReviewPk`,
  `nextCommentPk`). The step functions take the new key as a parameter. Path ids are
  natural numbers; a non-numeric id in the URL is not modelled.
- Concurrency is left out. Two registrations racing between the `get` and the `create` of
  `get_or_create` are not modelled; each request runs alone.
- `api/admin.py` and `api/urls.py` (registration of the admin site and routing) are not part
  of this model.
- Views.Register: the username saved by `create_user` is the email, which may have up to
  254 characters while the username column has 150, and `save()` does not validate. The
  model assumes the database stores the longer value, as SQLite does. A database that
  enforces the length (PostgreSQL, MySQL in strict mode) raises at `save()` instead, which
  is a 500 with the inserted row kept (rolled back in `RegisterAtomic`); "failures are only MultipleObjectsReturned or
  IntegrityError" holds only under that assumption.
- `EmailsUnique` states that non-blank emails are unique. The database does not enforce
  even that; the model keeps it because every write path in the model checks it.

## Findings

| source | as written | input that shows it | evidently intended | confidence | as-written member | corrected member |
|---|---|---|---|---|---|---|
| api/views.py:143-153 | `patch_me` validates with `UserSerializer`, whose fields include `role`, so the caller's role is saved | a plain user sends PATCH `/users/me/` with `role=admin` | a user edits their own profile but not their role | high (not executed) | Views.SelfPromotion | Views.SelfUpdate |
| api/views.py:106-127 | `confirmation_code` may be blank (api/models.py:18), and users created through the admin site or the user endpoint have a blank code; the lookup matches them | POST `/auth/token/` with `email` = the username of a user with a blank code and `confirmation_code` = "". The posted `email` must pass the email field, so only users whose username is itself a valid address or blank are exposed: an admin-created `alice@x.com`, and the row a refused registration leaves behind, whose username and code are both blank, which POST `email=""&confirmation_code=""` opens (Views.OrphanRowOpensWithBlankCredentials) | only a code that registration mailed opens an account | high (not executed) | Views.BlankCodeIssuesToken | Views.GetToken |
| api/views.py:78-81 | `get_or_create` and `save()` are not in one transaction, so when the save is refused the inserted row, with a blank username, stays; the next row inserted for a new email would also have a blank username, which the unique column refuses | user A registers `a@x.com` and then changes their email; anyone registering `a@x.com` gets a 500 and leaves a row with a blank username; from then on every registration of a new email is a 500 | a refused registration writes nothing (`transaction.atomic`) and does not block later ones | high (not executed) | Views.OrphanRowBlocksRegistration | Views.AtomicFailureBlocksNothing |

=== FILE: models.dfy ===
/** Entities of the review platform, the role predicates derived from a user row,
    the review score bounds, the invariants of the tables, and what the foreign keys'
    on_delete rules do to the store when a row is deleted. */
module Models {
  import opened Wrappers

  /** The role choices of a user; see RoleValue for what is stored. */
  datatype Role = Admin | Moderator | Regular

  /** The value stored in the role column. */
  function RoleValue(r: Role): string
  {
    match r
    case Admin => "admin"
    case Moderator => "moderator"
    case Regular => "user"
  }

  /** Reads a submitted role the way the choice field does: only a stored value is a choice. */
  function ParseRole(s: string): (r: Option<Role>)
    ensures r.Some? ==> RoleValue(r.value) == s
    ensures r.None? ==> forall role: Role :: RoleValue(role) != s
  {
    if s == "admin" then Some(Admin)
    else if s == "moderator" then Some(Moderator)
    else if s == "user" then Some(Regular)
    else None
  }

  /** Every role survives being stored and read back, and no two roles share a value. */
  lemma RoleValueRoundTrip(r: Role)
    ensures ParseRole(RoleValue(r)) == Some(r)
  {
  }

  /** A row of the user table. The primary key is the key of the map that holds it. */
  datatype User = User(
    username: string,
    email: string,
    firstName: string,
    lastName: string,
    bio: string,
    role: Role,
    isSuperuser: bool,
    confirmationCode: string)

  predicate IsAdmin(u: User)
  {
    u.role == Admin || u.isSuperuser
  }

  predicate IsModerator(u: User)
  {
    u.role == Moderator
  }

  /** The row that an insert giving only the email produces: every other column takes its
      default, so the new user has the plain role, is not a superuser and has no code yet. */
  function NewUser(email: string): (u: User)
    ensures u.email == email && u.username == "" && u.confirmationCode == ""
    ensures !IsAdmin(u) && !IsModerator(u)
  {
    User("", email, "", "", "", Regular, false, "")
  }

  /** is_admin: the admin role or the superuser flag, and nothing else. */
  lemma AdminExactly(u: User)
    ensures IsAdmin(u) <==> u.role == Admin || u.isSuperuser
    ensures u.role == Admin ==> IsAdmin(u)
    ensures u.isSuperuser ==> IsAdmin(u)
  {
  }

  /** is_moderator is the moderator role only; a moderator is an admin only by being a superuser. */
  lemma ModeratorIsNotAdmin(u: User)
    ensures IsModerator(u) <==> u.role == Moderator
    ensures IsModerator(u) && !u.isSuperuser ==> !IsAdmin(u)
    ensures IsModerator(u) && IsAdmin(u) ==> u.isSuperuser
  {
  }

  const ScoreMin := 0
  const ScoreMax := 10

  /** The range that the two score validators together accept. */
  predicate ScoreInRange(score: int)
  {
    ScoreMin <= score <= ScoreMax
  }

  datatype Category = Category(name: string, slug: string)

  datatype Genre = Genre(name: string, slug: string)

  /** A title: its category is a nullable foreign key, its genres a many-to-many set. */
  datatype Title = Title(name: string, year: int, description: string, category: Option<nat>, genres: set<nat>)

  datatype Review = Review(title: nat, author: nat, text: string, score: int)

  datatype Comment = Comment(review: nat, author: nat, text: string)

  /** The tables of the store, each keyed by primary key. */
  datatype Db = Db(
    users: map<nat, User>,
    categories: map<nat, Category>,
    genres: map<nat, Genre>,
    titles: map<nat, Title>,
    reviews: map<nat, Review>,
    comments: map<nat, Comment>)

  /** The unique constraint of the username column. */
  predicate UsernamesUnique(users: map<nat, User>)
  {
    forall a, b :: a in users && b in users && users[a].username == users[b].username ==> a == b
  }

  /** No two users share a non-blank email. The database does not enforce this; the
      serializers do, and a blank email escapes their check. */
  predicate EmailsUnique(users: map<nat, User>)
  {
    forall a, b :: a in users && b in users && users[a].email != "" && users[a].email == users[b].email ==> a == b
  }

  predicate ScoresInRange(reviews: map<nat, Review>)
  {
    forall pk :: pk in reviews ==> ScoreInRange(reviews[pk].score)
  }

  /** At most one review per (title, author) pair. */
  predicate OneReviewPerPair(reviews: map<nat, Review>)
  {
    forall a, b ::
      a in reviews && b in reviews && reviews[a].title == reviews[b].title && reviews[a].author == reviews[b].author
      ==> a == b
  }

  /** Every foreign key refers to a row that exists. */
  predicate Linked(db: Db)
  {
    && (forall t :: t in db.titles && db.titles[t].category.Some? ==> db.titles[t].category.value in db.categories)
    && (forall t :: t in db.titles ==> db.titles[t].genres <= db.genres.Keys)
    && (forall r :: r in db.reviews ==> db.reviews[r].title in db.titles && db.reviews[r].author in db.users)
    && (forall c :: c in db.comments ==> db.comments[c].review in db.reviews && db.comments[c].author in db.users)
  }

  /** Title.category has on_delete=SET_NULL: deleting a category keeps its titles and clears
      their category; nothing else in the store changes. */
  function DeleteCategory(db: Db, c: nat): (r: Db)
    ensures r.categories == db.categories - {c}
    ensures r.titles.Keys == db.titles.Keys
    ensures forall t :: t in r.titles ==> r.titles[t].category != Some(c)
    ensures forall t :: t in r.titles && db.titles[t].category == Some(c) ==> r.titles[t].category == None
    ensures forall t :: t in r.titles ==> r.titles[t].(category := db.titles[t].category) == db.titles[t]
    ensures forall t :: t in r.titles && db.titles[t].category != Some(c) ==> r.titles[t] == db.titles[t]
    ensures r.(categories := db.categories, titles := db.titles) == db
  {
    var titles := map t | t in db.titles ::
      if db.titles[t].category == Some(c) then db.titles[t].(category := None) else db.titles[t];
    db.(categories := db.categories - {c}, titles := titles)
  }

  /** Deleting a genre removes its rows in the many-to-many link table: every title stays,
      without that genre. */
  function DeleteGenre(db: Db, g: nat): (r: Db)
    ensures r.genres == db.genres - {g}
    ensures r.titles.Keys == db.titles.Keys
    ensures forall t :: t in r.titles ==> g !in r.titles[t].genres
    ensures forall t :: t in r.titles ==>
              r.titles[t].genres + {g} == db.titles[t].genres + {g} && r.titles[t].(genres := db.titles[t].genres) == db.titles[t]
    ensures r.(genres := db.genres, titles := db.titles) == db
  {
    var titles := map t | t in db.titles :: db.titles[t].(genres := db.titles[t].genres - {g});
    db.(genres := db.genres - {g}, titles := titles)
  }

  /** Comment.review_id has on_delete=CASCADE: deleting a review deletes its comments. */
  function DeleteReview(db: Db, rv: nat): (r: Db)
    ensures r.reviews == db.reviews - {rv}
    ensures forall c :: c in r.comments <==> c in db.comments && db.comments[c].review != rv
    ensures forall c :: c in r.comments ==> r.comments[c] == db.comments[c]
    ensures r.(reviews := db.reviews, comments := db.comments) == db
  {
    db.(reviews := db.reviews - {rv},
        comments := map c | c in db.comments && db.comments[c].review != rv :: db.comments[c])
  }

  /** Primary keys of the reviews of a title. */
  function ReviewsOfTitle(db: Db, t: nat): set<nat>
  {
    set pk | pk in db.reviews && db.reviews[pk].title == t
  }

  /** Review.title has on_delete=CASCADE, and so has Comment.review_id: deleting a title
      deletes its reviews and, through them, their comments. */
  function DeleteTitle(db: Db, t: nat): (r: Db)
    ensures r.titles == db.titles - {t}
    ensures forall pk :: pk in r.reviews <==> pk in db.reviews && db.reviews[pk].title != t
    ensures forall c :: c in r.comments <==> c in db.comments && db.comments[c].review !in ReviewsOfTitle(db, t)
    ensures forall pk :: pk in r.reviews ==> r.reviews[pk] == db.reviews[pk]
    ensures forall c :: c in r.comments ==> r.comments[c] == db.comments[c]
    ensures r.(titles := db.titles, reviews := db.reviews, comments := db.comments) == db
  {
    var gone := ReviewsOfTitle(db, t);
    db.(titles := db.titles - {t},
        reviews := map pk | pk in db.reviews && pk !in gone :: db.reviews[pk],
        comments := map c | c in db.comments && db.comments[c].review !in gone :: db.comments[c])
  }

  /** The reviews whose author is not `u`. */
  function ReviewsNotBy(reviews: map<nat, Review>, u: nat): (r: map<nat, Review>)
    ensures forall pk :: pk in r <==> pk in reviews && reviews[pk].author != u
    ensures forall pk :: pk in r ==> r[pk] == reviews[pk]
  {
    map pk | pk in reviews && reviews[pk].author != u :: reviews[pk]
  }

  /** The comments that neither `u` wrote nor hang from a review `u` wrote. */
  function CommentsNotUnder(db: Db, u: nat): (r: map<nat, Comment>)
    ensures forall c :: c in r <==>
              && c in db.comments && db.comments[c].author != u
              && !(db.comments[c].review in db.reviews && db.reviews[db.comments[c].review].author == u)
    ensures forall c :: c in r ==> r[c] == db.comments[c]
  {
    map c | && c in db.comments && db.comments[c].author != u
            && !(db.comments[c].review in db.reviews && db.reviews[db.comments[c].review].author == u)
      :: db.comments[c]
  }

  /** A comment on an existing review by an existing user keeps the store linked. */
  lemma LinkedWithNewComment(db: Db, pk: nat, c: Comment)
    requires Linked(db) && c.review in db.reviews && c.author in db.users
    ensures Linked(db.(comments := db.comments[pk := c]))
  {
  }

  /** Review.author and Comment.author have on_delete=CASCADE: deleting a user deletes the
      reviews and comments they wrote, and the comments under their reviews. */
  function DeleteUser(db: Db, u: nat): (r: Db)
    ensures r.users == db.users - {u}
    ensures forall pk :: pk in r.reviews <==> pk in db.reviews && db.reviews[pk].author != u
    ensures forall c :: c in r.comments <==>
              && c in db.comments && db.comments[c].author != u
              && !(db.comments[c].review in db.reviews && db.reviews[db.comments[c].review].author == u)
    ensures forall c :: c in r.comments ==> r.comments[c] == db.comments[c]
    ensures forall pk :: pk in r.reviews ==> r.reviews[pk] == db.reviews[pk]
    ensures r.(users := db.users, reviews := db.reviews, comments := db.comments) == db
  {
    db.(users := db.users - {u}, reviews := ReviewsNotBy(db.reviews, u), comments := CommentsNotUnder(db, u))
  }

  /** Replacing one user row keeps usernames and non-blank emails unique when no other row
      holds the new username or the new non-blank email. */
  lemma RowUpdateKeepsUniqueness(users: map<nat, User>, pk: nat, u: User)
    requires pk in users && UsernamesUnique(users) && EmailsUnique(users)
    requires forall q :: q in users && q != pk ==> users[q].username != u.username
    requires u.email != "" ==> forall q :: q in users && q != pk ==> users[q].email != u.email
    ensures UsernamesUnique(users[pk := u]) && EmailsUnique(users[pk := u])
  {
    var after := users[pk := u];
    forall a, b | a in after && b in after && after[a].username == after[b].username
      ensures a == b
    {
      if a != pk && b != pk {
        assert after[a] == users[a] && after[b] == users[b];
      }
    }
    forall a, b | a in after && b in after && after[a].email != "" && after[a].email == after[b].email
      ensures a == b
    {
      if a != pk && b != pk {
        assert after[a] == users[a] && after[b] == users[b];
      }
    }
  }

  /** Adding or changing users never breaks a foreign key, as long as no user row goes. */
  lemma LinkedWithMoreUsers(db: Db, users: map<nat, User>)
    requires Linked(db) && db.users.Keys <= users.Keys
    ensures Linked(db.(users := users))
  {
  }

  /** SET_NULL leaves no title pointing at the deleted category. */
  lemma DeleteCategoryKeepsLinks(db: Db, c: nat)
    requires Linked(db)
    ensures Linked(DeleteCategory(db, c))
  {
  }

  lemma DeleteGenreKeepsLinks(db: Db, g: nat)
    requires Linked(db)
    ensures Linked(DeleteGenre(db, g))
  {
    var r := DeleteGenre(db, g);
    forall t | t in r.titles
      ensures r.titles[t].genres <= r.genres.Keys
    {
      assert r.titles[t].genres == db.titles[t].genres - {g};
    }
  }

  lemma DeleteReviewKeepsLinks(db: Db, rv: nat)
    requires Linked(db)
    ensures Linked(DeleteReview(db, rv))
  {
  }

  /** The cascade from a title reaches every comment that would otherwise dangle. */
  lemma DeleteTitleKeepsLinks(db: Db, t: nat)
    requires Linked(db)
    ensures Linked(DeleteTitle(db, t))
  {
    var r := DeleteTitle(db, t);
    forall c | c in r.comments
      ensures r.comments[c].review in r.reviews
    {
      var rv := db.comments[c].review;
      assert rv in db.reviews && rv !in ReviewsOfTitle(db, t);
    }
  }

  /** The cascade from a user reaches every review and comment that would otherwise dangle. */
  lemma DeleteUserKeepsLinks(db: Db, u: nat)
    requires Linked(db)
    ensures Linked(DeleteUser(db, u))
  {
    var r := DeleteUser(db, u);
    forall c | c in r.comments
      ensures r.comments[c].review in r.reviews
    {
      var rv := db.comments[c].review;
      assert rv in db.reviews && db.reviews[rv].author != u;
    }
  }

  /** A deletion only removes reviews or changes other tables, so the review invariants survive. */
  lemma DeletesKeepReviewInvariants(db: Db, pk: nat)
    requires ScoresInRange(db.reviews) && OneReviewPerPair(db.reviews)
    ensures ScoresInRange(DeleteTitle(db, pk).reviews) && OneReviewPerPair(DeleteTitle(db, pk).reviews)
    ensures ScoresInRange(DeleteReview(db, pk).reviews) && OneReviewPerPair(DeleteReview(db, pk).reviews)
    ensures ScoresInRange(DeleteUser(db, pk).reviews) && OneReviewPerPair(DeleteUser(db, pk).reviews)
  {
  }
}

=== FILE: permissions.dfy ===
/** The permission classes of the API as predicates over the request method, the
    requesting user and, for object permissions, the author of the target object. */
module Permissions {
  import opened Models

  datatype Method = Get | Head | Options | Post | Put | Patch | Delete

  /** The framework's SAFE_METHODS. */
  predicate IsSafe(m: Method)
  {
    m == Get || m == Head || m == Options
  }

  /** request.user of an authenticated request: its primary key and its row. */
  datatype Caller = Caller(pk: nat, account: User)

  /** The requester as the permission checks see it. */
  datatype Requester = Anonymous | Authenticated(caller: Caller)

  /** IsOwnerOrReadOnly.has_object_permission. */
  predicate IsOwnerOrReadOnly(m: Method, c: Caller, authorPk: nat)
  {
    IsSafe(m) || authorPk == c.pk
  }

  /** UserAdministrator.has_permission; the method plays no part. */
  predicate UserAdministrator(m: Method, c: Caller)
  {
    c.account.isSuperuser || IsAdmin(c.account)
  }

  /** UserAdministratorOrReadOnly.has_permission. */
  predicate UserAdministratorOrReadOnly(m: Method, c: Caller)
  {
    IsSafe(m) || IsAdmin(c.account)
  }

  /** OwnerAdministratorOrModeratorOrReadOnly.has_object_permission. */
  predicate OwnerAdministratorOrModeratorOrReadOnly(m: Method, c: Caller, authorPk: nat)
  {
    if IsSafe(m) then true
    else IsAdmin(c.account) || IsModerator(c.account) || authorPk == c.pk
  }

  /** The framework's IsAuthenticatedOrReadOnly, checked before the policies above. */
  predicate IsAuthenticatedOrReadOnly(m: Method, req: Requester)
  {
    IsSafe(m) || req.Authenticated?
  }

  /** The permission chain of a review or comment object:
      [IsAuthenticatedOrReadOnly, OwnerAdministratorOrModeratorOrReadOnly]. The second
      class is reached by an anonymous requester only with a safe method. */
  function AuthoredObjectAccess(m: Method, req: Requester, authorPk: nat): (ok: bool)
    ensures IsSafe(m) ==> ok
    ensures req.Anonymous? ==> (ok <==> IsSafe(m))
    ensures req.Authenticated? ==> (ok <==> OwnerAdministratorOrModeratorOrReadOnly(m, req.caller, authorPk))
  {
    IsAuthenticatedOrReadOnly(m, req) &&
    match req
    case Anonymous => true
    case Authenticated(c) => OwnerAdministratorOrModeratorOrReadOnly(m, c, authorPk)
  }

  /** The permission chain of the category, genre and title views:
      [IsAuthenticatedOrReadOnly, UserAdministratorOrReadOnly]. */
  function CatalogAccess(m: Method, req: Requester): (ok: bool)
    ensures IsSafe(m) ==> ok
    ensures !IsSafe(m) ==> (ok <==> req.Authenticated? && IsAdmin(req.caller.account))
  {
    IsAuthenticatedOrReadOnly(m, req) &&
    match req
    case Anonymous => true
    case Authenticated(c) => UserAdministratorOrReadOnly(m, c)
  }

  /** The permission chain of the user administration view: [IsAuthenticated, UserAdministrator]. */
  function UserAdminAccess(m: Method, req: Requester): (ok: bool)
    ensures ok <==> req.Authenticated? && IsAdmin(req.caller.account)
  {
    match req
    case Anonymous => false
    case Authenticated(c) => UserAdministrator(m, c)
  }

  /** IsOwnerOrReadOnly: safe methods always pass; others exactly for the author. */
  lemma OwnerOrReadOnlyRule(m: Method, c: Caller, authorPk: nat)
    ensures IsSafe(m) ==> IsOwnerOrReadOnly(m, c, authorPk)
    ensures !IsSafe(m) ==> (IsOwnerOrReadOnly(m, c, authorPk) <==> authorPk == c.pk)
  {
  }

  /** UserAdministrator: superuser or admin, whatever the method. */
  lemma AdministratorIgnoresMethod(m: Method, m': Method, c: Caller)
    ensures UserAdministrator(m, c) <==> UserAdministrator(m', c)
    ensures UserAdministrator(m, c) <==> IsAdmin(c.account)
  {
  }

  /** UserAdministratorOrReadOnly: safe methods always pass; others exactly for admins. */
  lemma AdministratorOrReadOnlyRule(m: Method, c: Caller)
    ensures IsSafe(m) ==> UserAdministratorOrReadOnly(m, c)
    ensures !IsSafe(m) ==> (UserAdministratorOrReadOnly(m, c) <==> IsAdmin(c.account))
  {
  }

  /** OwnerAdministratorOrModeratorOrReadOnly: safe methods always pass; others exactly for
      an admin, a moderator or the author. */
  lemma ModeratedRule(m: Method, c: Caller, authorPk: nat)
    ensures IsSafe(m) ==> OwnerAdministratorOrModeratorOrReadOnly(m, c, authorPk)
    ensures !IsSafe(m) ==>
              (OwnerAdministratorOrModeratorOrReadOnly(m, c, authorPk)
               <==> IsAdmin(c.account) || IsModerator(c.account) || authorPk == c.pk)
  {
  }

  /** Whatever IsOwnerOrReadOnly allows, the moderated policy allows too. */
  lemma OwnerPolicyWeakerThanModerated(m: Method, c: Caller, authorPk: nat)
    requires IsOwnerOrReadOnly(m, c, authorPk)
    ensures OwnerAdministratorOrModeratorOrReadOnly(m, c, authorPk)
  {
  }

  /** An admin passes the three policies that recognise administrators, and the access each
      view grants through them, for every method and every object. IsOwnerOrReadOnly is not
      one of them: it lets only the author write. */
  lemma AdminPassesAdminAwarePolicies(m: Method, c: Caller, authorPk: nat)
    requires IsAdmin(c.account)
    ensures UserAdministrator(m, c)
    ensures UserAdministratorOrReadOnly(m, c)
    ensures OwnerAdministratorOrModeratorOrReadOnly(m, c, authorPk)
    ensures AuthoredObjectAccess(m, Authenticated(c), authorPk)
    ensures CatalogAccess(m, Authenticated(c)) && UserAdminAccess(m, Authenticated(c))
  {
  }

  /** A moderator who is not a superuser may change anybody's review or comment but not
      the catalogue, and may not administer users. */
  lemma ModeratorReach(m: Method, c: Caller, authorPk: nat)
    requires c.account.role == Moderator && !c.account.isSuperuser && !IsSafe(m)
    ensures AuthoredObjectAccess(m, Authenticated(c), authorPk)
    ensures !CatalogAccess(m, Authenticated(c))
    ensures !UserAdminAccess(m, Authenticated(c))
  {
  }

  /** A plain user changes only what they wrote and reads everything. */
  lemma RegularUserReach(m: Method, c: Caller, authorPk: nat)
    requires c.account.role == Regular && !c.account.isSuperuser
    ensures AuthoredObjectAccess(m, Authenticated(c), authorPk) <==> IsSafe(m) || authorPk == c.pk
    ensures CatalogAccess(m, Authenticated(c)) <==> IsSafe(m)
    ensures !UserAdminAccess(m, Authenticated(c))
  {
  }
}

=== FILE: responses.dfy ===
/** The ways a request can fail, and the HTTP status each one is answered with. */
module Responses {

  const Ok := 200
  const Created := 201
  const BadRequest := 400
  const NotFoundStatus := 404
  const ServerError := 500

  datatype Failure =
    /** A serializer rejected the request: field name (or "non_field_errors") to message. */
    | Invalid(errors: map<string, string>)
    /** get_object_or_404 found no row. */
    | NotFound
    /** The database refused a write that breaks a unique constraint. */
    | IntegrityError
    /** An ORM `get` matched more than one row. */
    | MultipleObjectsReturned
    /** The mail transport raised while sending the confirmation code. */
    | MailFailure

  /** Status of the response a failure turns into: validation errors are 400, a missing
      parent is 404, and every exception the views do not catch is a server error. */
  function StatusOf(f: Failure): (code: int)
    ensures code == BadRequest <==> f.Invalid?
    ensures code == NotFoundStatus <==> f.NotFound?
    ensures code == ServerError <==> (f.IntegrityError? || f.MultipleObjectsReturned? || f.MailFailure?)
  {
    match f
    case Invalid(_) => BadRequest
    case NotFound => NotFoundStatus
    case _ => ServerError
  }
}

=== FILE: serializers.dfy ===
/** Request validation of the serializers: the field rules the model columns imply
    (required, blank, maximum length, unique, choices, validators) and the one cross-record
    rule, a single review per author and title. Errors are keyed by field, as the framework
    reports them. */
module Serializers {
  import opened Wrappers
  import opened Models
  import opened Permissions
  import opened Responses

  const RequiredMessage := "This field is required."
  const BlankMessage := "This field may not be blank."
  const NullCharMessage := "Null characters are not allowed."
  const UniqueMessage := "This field must be unique."
  const UsernameTakenMessage := "A user with that username already exists."
  const ScoreTooHighMessage := "Ensure this value is less than or equal to 10."
  const ScoreTooLowMessage := "Ensure this value is greater than or equal to 0."
  const AlreadyReviewedMessage := "You have already left the review"
  const NonFieldErrors := "non_field_errors"

  /** Column lengths: the email and name columns of the user model, the bio and code columns. */
  const EmailMaxLength := 254
  const UsernameMaxLength := 150
  const NameMaxLength := 150
  const BioMaxLength := 500
  const CodeMaxLength := 32

  function DigitChar(d: nat): char
    requires d < 10
  {
    "0123456789"[d]
  }

  /** The decimal numeral of n, as the length messages print it. */
  function Decimal(n: nat): (s: string)
    ensures |s| > 0
  {
    if n < 10 then [DigitChar(n)] else Decimal(n / 10) + [DigitChar(n % 10)]
  }

  function TooLongMessage(maxLength: nat): string
  {
    "Ensure this field has no more than " + Decimal(maxLength) + " characters."
  }

  function NotAChoiceMessage(s: string): string
  {
    "\"" + s + "\" is not a valid choice."
  }

  /** The characters that Python's `str.strip()` removes. */
  predicate IsSpace(c: char)
  {
    || c == ' ' || ('\t' <= c <= '\r') || ('\U{1C}' <= c <= '\U{1F}')
    || c == '\U{85}' || c == '\U{A0}' || c == '\U{1680}' || ('\U{2000}' <= c <= '\U{200A}')
    || c == '\U{2028}' || c == '\U{2029}' || c == '\U{202F}' || c == '\U{205F}' || c == '\U{3000}'
  }

  /** `s` without its leading white space. */
  function TrimStart(s: string): string
  {
    if s != [] && IsSpace(s[0]) then TrimStart(s[1..]) else s
  }

  /** `s` without its trailing white space. */
  function TrimEnd(s: string): string
  {
    if s != [] && IsSpace(s[|s| - 1]) then TrimEnd(s[..|s| - 1]) else s
  }

  /** What a text field keeps of its input: the input without surrounding white space. */
  function Trim(s: string): string
  {
    TrimEnd(TrimStart(s))
  }

  /** TrimStart keeps a suffix that does not start with white space. */
  lemma {:induction false} TrimStartIsSuffix(s: string)
    ensures |TrimStart(s)| <= |s| && TrimStart(s) == s[|s| - |TrimStart(s)|..]
    ensures TrimStart(s) == [] || !IsSpace(TrimStart(s)[0])
  {
    if s != [] && IsSpace(s[0]) {
      var t := s[1..];
      TrimStartIsSuffix(t);
      assert t[|t| - |TrimStart(t)|..] == s[|s| - |TrimStart(t)|..];
    }
  }

  /** What TrimStart drops is white space. */
  lemma {:induction false} TrimStartDropsSpace(s: string)
    ensures forall i :: 0 <= i < |s| - |TrimStart(s)| ==> IsSpace(s[i])
  {
    if s != [] && IsSpace(s[0]) {
      var t := s[1..];
      TrimStartDropsSpace(t);
      forall i | 0 <= i < |s| - |TrimStart(s)|
        ensures IsSpace(s[i])
      {
        if i > 0 {
          assert s[i] == t[i - 1];
        }
      }
    }
  }

  /** TrimEnd keeps a prefix that does not end with white space. */
  lemma {:induction false} TrimEndIsPrefix(s: string)
    ensures |TrimEnd(s)| <= |s| && TrimEnd(s) == s[..|TrimEnd(s)|]
    ensures TrimEnd(s) == [] || !IsSpace(TrimEnd(s)[|TrimEnd(s)| - 1])
  {
    if s != [] && IsSpace(s[|s| - 1]) {
      var t := s[..|s| - 1];
      TrimEndIsPrefix(t);
      assert t[..|TrimEnd(t)|] == s[..|TrimEnd(t)|];
    }
  }

  /** What TrimEnd drops is white space. */
  lemma {:induction false} TrimEndDropsSpace(s: string)
    ensures forall i :: |TrimEnd(s)| <= i < |s| ==> IsSpace(s[i])
  {
    if s != [] && IsSpace(s[|s| - 1]) {
      var t := s[..|s| - 1];
      TrimEndDropsSpace(t);
      TrimEndIsPrefix(t);
      forall i | |TrimEnd(s)| <= i < |s|
        ensures IsSpace(s[i])
      {
        if i < |s| - 1 {
          assert s[i] == t[i];
        }
      }
    }
  }

  /** The trimmed input is a part of the input that neither starts nor ends with white
      space. */
  lemma TrimHasNoOuterSpace(s: string)
    ensures |Trim(s)| <= |s|
    ensures Trim(s) == [] || (!IsSpace(Trim(s)[0]) && !IsSpace(Trim(s)[|Trim(s)| - 1]))
  {
    TrimStartIsSuffix(s);
    TrimEndIsPrefix(TrimStart(s));
  }

  /** The trimmed input is blank exactly when the input is white space only. */
  lemma TrimBlankExactlyWhenAllSpace(s: string)
    ensures Trim(s) == [] <==> forall i :: 0 <= i < |s| ==> IsSpace(s[i])
  {
    var t := TrimStart(s);
    TrimStartIsSuffix(s);
    TrimStartDropsSpace(s);
    TrimEndIsPrefix(t);
    TrimEndDropsSpace(t);
    assert forall i :: 0 <= i < |t| ==> t[i] == s[|s| - |t| + i];
  }

  /** A string that neither starts nor ends with white space is its own trimmed form. */
  lemma TrimKeepsTrimmed(s: string)
    requires s == [] || (!IsSpace(s[0]) && !IsSpace(s[|s| - 1]))
    ensures Trim(s) == s
  {
    assert TrimStart(s) == s;
  }

  /** Trimming twice is trimming once: a validated text validates to itself. */
  lemma TrimIdempotent(s: string)
    ensures Trim(Trim(s)) == Trim(s)
  {
    TrimHasNoOuterSpace(s);
    TrimKeepsTrimmed(Trim(s));
  }

  /** The value a text field passes on: the trimmed input, when there is one. */
  function Cleaned(value: Option<string>): (r: Option<string>)
    ensures r.None? <==> value.None?
    ensures r.Some? ==> r.value == Trim(value.value)
  {
    if value.Some? then Some(Trim(value.value)) else None
  }

  /** The validators every text field runs on its trimmed value: the column's maximum length
      and the ban on the null character U+0000. */
  predicate FitsColumn(t: string, maxLength: nat)
  {
    |t| <= maxLength && '\0' !in t
  }

  /** Message of the first rule a text field breaks, if any. The input is trimmed first. An
      absent field fails only when it is required; a trimmed value that is blank is refused
      unless blank is allowed, and then it is returned before the validators run. */
  function CharFieldError(value: Option<string>, required: bool, allowBlank: bool, maxLength: nat): (e: Option<string>)
    ensures e.None? <==>
              (value.None? ==> !required) &&
              (value.Some? ==> (Trim(value.value) == "" ==> allowBlank) && FitsColumn(Trim(value.value), maxLength))
    ensures value.None? && required ==> e == Some(RequiredMessage)
    ensures value.Some? && Trim(value.value) == "" && !allowBlank ==> e == Some(BlankMessage)
    ensures value.Some? && |Trim(value.value)| <= maxLength && '\0' in Trim(value.value) ==> e == Some(NullCharMessage)
  {
    match value
    case None => if required then Some(RequiredMessage) else None
    case Some(s) =>
      var t := Trim(s);
      if t == "" then (if allowBlank then None else Some(BlankMessage))
      else if |t| > maxLength then Some(TooLongMessage(maxLength))
      else if '\0' in t then Some(NullCharMessage)
      else None
  }

  function WithError(errors: map<string, string>, field: string, e: Option<string>): (r: map<string, string>)
    ensures e.None? ==> r == errors
    ensures e.Some? ==> r == errors[field := e.value]
    ensures errors.Keys <= r.Keys && (e.Some? ==> field in r)
  {
    if e.Some? then errors[field := e.value] else errors
  }

  // ---------------------------------------------------------------------------------
  // Registration and token exchange

  /** UserCreationSerializer: the email is required. The column allows a blank value and
      at most 254 characters, and no null character. */
  function UserCreationFields(email: Option<string>): (r: Result<string, Failure>)
    ensures r.Success? <==> email.Some? && FitsColumn(Trim(email.value), EmailMaxLength)
    ensures r.Success? ==> r.value == Trim(email.value)
    ensures email.None? ==> r == Failure(Invalid(map["email" := RequiredMessage]))
    ensures r.Failure? ==> r.error.Invalid? && r.error.errors.Keys == {"email"}
  {
    var e := CharFieldError(email, true, true, EmailMaxLength);
    if e.Some? then Failure(Invalid(map["email" := e.value])) else Success(Trim(email.value))
  }

  /** UserTokenSerializer: email and confirmation code are both required; the code column is
      32 characters long and, like the email, may be blank. */
  function UserTokenFields(email: Option<string>, code: Option<string>): (r: Result<(string, string), Failure>)
    ensures r.Success? <==>
              && email.Some? && code.Some?
              && FitsColumn(Trim(email.value), EmailMaxLength) && FitsColumn(Trim(code.value), CodeMaxLength)
    ensures r.Success? ==> r.value == (Trim(email.value), Trim(code.value))
    ensures r.Failure? ==> r.error.Invalid? && r.error.errors.Keys <= {"email", "confirmation_code"}
    ensures email.None? ==> r.Failure? && "email" in r.error.errors && r.error.errors["email"] == RequiredMessage
    ensures code.None? ==> r.Failure? && "confirmation_code" in r.error.errors && r.error.errors["confirmation_code"] == RequiredMessage
  {
    var emailError := CharFieldError(email, true, true, EmailMaxLength);
    var codeError := CharFieldError(code, true, true, CodeMaxLength);
    if emailError.None? && codeError.None? then Success((Trim(email.value), Trim(code.value)))
    else Failure(Invalid(WithError(WithError(map[], "email", emailError), "confirmation_code", codeError)))
  }

  // ---------------------------------------------------------------------------------
  // UserSerializer

  /** The writable fields of a user as a request gives them; any may be missing. */
  datatype UserInput = UserInput(
    username: Option<string>,
    email: Option<string>,
    firstName: Option<string>,
    lastName: Option<string>,
    bio: Option<string>,
    role: Option<string>)

  /** The validated fields, the role parsed into a choice. */
  datatype UserFields = UserFields(
    username: Option<string>,
    email: Option<string>,
    firstName: Option<string>,
    lastName: Option<string>,
    bio: Option<string>,
    role: Option<Role>)

  /** Some user other than `instance` already has this username. */
  predicate UsernameTaken(users: map<nat, User>, instance: Option<nat>, username: string)
  {
    exists pk :: pk in users && Some(pk) != instance && users[pk].username == username
  }

  /** Some user other than `instance` already has this email. */
  predicate EmailTaken(users: map<nat, User>, instance: Option<nat>, email: string)
  {
    exists pk :: pk in users && Some(pk) != instance && users[pk].email == email
  }

  /** The username must not be blank, fit its column and (by the model's unique column)
      not belong to another user. */
  function UsernameError(users: map<nat, User>, instance: Option<nat>, username: Option<string>, partial: bool): (e: Option<string>)
    ensures e.None? <==>
              (username.None? ==> partial) &&
              (username.Some? ==>
                 var name := Trim(username.value);
                 name != "" && FitsColumn(name, UsernameMaxLength) && !UsernameTaken(users, instance, name))
  {
    var e := CharFieldError(username, !partial, false, UsernameMaxLength);
    if e.Some? then e
    else if username.Some? && UsernameTaken(users, instance, Trim(username.value)) then Some(UsernameTakenMessage)
    else None
  }

  /** The email fits its column and, when not blank, belongs to no other user (a blank value
      is returned before the uniqueness validator runs). */
  function EmailError(users: map<nat, User>, instance: Option<nat>, email: Option<string>, partial: bool): (e: Option<string>)
    ensures e.None? <==>
              (email.None? ==> partial) &&
              (email.Some? ==>
                 var address := Trim(email.value);
                 FitsColumn(address, EmailMaxLength) && (address != "" ==> !EmailTaken(users, instance, address)))
  {
    var e := CharFieldError(email, !partial, true, EmailMaxLength);
    if e.Some? then e
    else if email.Some? && Trim(email.value) != "" && EmailTaken(users, instance, Trim(email.value)) then Some(UniqueMessage)
    else None
  }

  function RoleError(role: Option<string>): (e: Option<string>)
    ensures e.None? <==> role.None? || ParseRole(role.value).Some?
  {
    if role.Some? && ParseRole(role.value).None? then Some(NotAChoiceMessage(role.value)) else None
  }

  /** UserSerializer validation, for a new user (`instance` None, not partial) or an update
      of `instance`. Username and email are required unless the update is partial. */
  function ValidateUser(users: map<nat, User>, instance: Option<nat>, input: UserInput, partial: bool): (r: Result<UserFields, Failure>)
    ensures !partial && (input.username.None? || input.email.None?) ==> r.Failure?
    ensures r.Success? <==>
              && UsernameError(users, instance, input.username, partial).None?
              && EmailError(users, instance, input.email, partial).None?
              && (input.firstName.Some? ==> FitsColumn(Trim(input.firstName.value), NameMaxLength))
              && (input.lastName.Some? ==> FitsColumn(Trim(input.lastName.value), NameMaxLength))
              && (input.bio.Some? ==> FitsColumn(Trim(input.bio.value), BioMaxLength))
              && (input.role.Some? ==> ParseRole(input.role.value).Some?)
    ensures r.Success? ==>
              && r.value.username == Cleaned(input.username) && r.value.email == Cleaned(input.email)
              && r.value.firstName == Cleaned(input.firstName) && r.value.lastName == Cleaned(input.lastName)
              && r.value.bio == Cleaned(input.bio)
              && (input.role.None? <==> r.value.role.None?)
              && (r.value.role.Some? ==> RoleValue(r.value.role.value) == input.role.value)
    ensures r.Success? && input.username.Some? ==>
              var name := Trim(input.username.value);
              name != "" && FitsColumn(name, UsernameMaxLength) &&
              forall pk :: pk in users && Some(pk) != instance ==> users[pk].username != name
    ensures r.Success? && input.email.Some? && Trim(input.email.value) != "" ==>
              forall pk :: pk in users && Some(pk) != instance ==> users[pk].email != Trim(input.email.value)
    ensures r.Failure? ==> r.error.Invalid? && r.error.errors != map[]
  {
    var usernameError := UsernameError(users, instance, input.username, partial);
    var emailError := EmailError(users, instance, input.email, partial);
    var firstNameError := CharFieldError(input.firstName, false, true, NameMaxLength);
    var lastNameError := CharFieldError(input.lastName, false, true, NameMaxLength);
    var bioError := CharFieldError(input.bio, false, true, BioMaxLength);
    var roleError := RoleError(input.role);
    if && usernameError.None? && emailError.None? && firstNameError.None?
       && lastNameError.None? && bioError.None? && roleError.None?
    then
      var role := if input.role.Some? then ParseRole(input.role.value) else None;
      Success(UserFields(
        Cleaned(input.username), Cleaned(input.email), Cleaned(input.firstName),
        Cleaned(input.lastName), Cleaned(input.bio), role))
    else
      var errors := WithError(map[], "username", usernameError);
      var errors := WithError(errors, "email", emailError);
      var errors := WithError(errors, "first_name", firstNameError);
      var errors := WithError(errors, "last_name", lastNameError);
      var errors := WithError(errors, "bio", bioError);
      Failure(Invalid(WithError(errors, "role", roleError)))
  }

  /** A successful validation of a user row never lets two users share a username, nor a
      non-blank email. */
  lemma ValidatedUserKeepsUniqueness(users: map<nat, User>, pk: nat, input: UserInput, partial: bool, u: User)
    requires pk in users && UsernamesUnique(users) && EmailsUnique(users)
    requires ValidateUser(users, Some(pk), input, partial).Success?
    requires input.username.Some? ==> u.username == Trim(input.username.value)
    requires input.username.None? ==> u.username == users[pk].username
    requires input.email.Some? ==> u.email == Trim(input.email.value)
    requires input.email.None? ==> u.email == users[pk].email
    ensures UsernamesUnique(users[pk := u]) && EmailsUnique(users[pk := u])
  {
    var v := ValidateUser(users, Some(pk), input, partial);
    assert forall q :: q in users && q != pk ==> users[q].username != u.username by {
      if input.username.Some? {
        assert forall q :: q in users && Some(q) != Some(pk) ==> users[q].username != u.username;
      }
    }
    assert u.email != "" ==> forall q :: q in users && q != pk ==> users[q].email != u.email by {
      if input.email.Some? && u.email != "" {
        assert forall q :: q in users && Some(q) != Some(pk) ==> users[q].email != u.email;
      }
    }
    RowUpdateKeepsUniqueness(users, pk, u);
  }

  // ---------------------------------------------------------------------------------
  // ReviewSerializer and CommentSerializer

  /** A required text column with no length limit and no blank allowed: the trimmed text
      must not be empty nor hold a null character. */
  function TextError(text: Option<string>): (e: Option<string>)
    ensures e.None? <==> text.Some? && Trim(text.value) != "" && '\0' !in Trim(text.value)
    ensures text.Some? && Trim(text.value) == "" ==> e == Some(BlankMessage)
    ensures text.Some? && '\0' in Trim(text.value) ==> e == Some(NullCharMessage)
  {
    match text
    case None => Some(RequiredMessage)
    case Some(s) =>
      if Trim(s) == "" then Some(BlankMessage)
      else if '\0' in Trim(s) then Some(NullCharMessage)
      else None
  }

  /** The writable fields of a review as a request gives them. */
  datatype ReviewInput = ReviewInput(text: Option<string>, score: Option<int>)

  /** The validated data of a review. */
  datatype ReviewData = ReviewData(text: string, score: int)

  function ScoreError(score: Option<int>): (e: Option<string>)
    ensures e.None? <==> score.Some? && ScoreInRange(score.value)
  {
    match score
    case None => Some(RequiredMessage)
    case Some(s) =>
      if s > ScoreMax then Some(ScoreTooHighMessage)
      else if s < ScoreMin then Some(ScoreTooLowMessage)
      else None
  }

  /** Field validation of a review: text required and not blank, score required and within
      the bounds of its two validators. */
  function ReviewFields(input: ReviewInput): (r: Result<ReviewData, Failure>)
    ensures r.Success? <==>
              && input.text.Some? && Trim(input.text.value) != "" && '\0' !in Trim(input.text.value)
              && input.score.Some? && ScoreInRange(input.score.value)
    ensures r.Success? ==> r.value == ReviewData(Trim(input.text.value), input.score.value)
    ensures r.Failure? ==> r.error.Invalid?
    ensures input.score.Some? && !ScoreInRange(input.score.value) ==> r.Failure? && "score" in r.error.errors
  {
    var textError := TextError(input.text);
    var scoreError := ScoreError(input.score);
    if textError.None? && scoreError.None? then Success(ReviewData(Trim(input.text.value), input.score.value))
    else Failure(Invalid(WithError(WithError(map[], "text", textError), "score", scoreError)))
  }

  /** Whether `author` already has a review of the title. */
  predicate HasReviewBy(reviews: map<nat, Review>, titlePk: nat, author: nat)
  {
    exists pk :: pk in reviews && reviews[pk].title == titlePk && reviews[pk].author == author
  }

  /** ReviewSerializer.validate: a PATCH passes untouched; any other method looks the path's
      title up (404 when missing) and refuses the caller's second review of it. */
  function ValidateReview(m: Method, db: Db, titlePk: nat, caller: nat, data: ReviewData): (r: Result<ReviewData, Failure>)
    ensures r.Success? ==> r.value == data
    ensures m == Patch ==> r.Success?
    ensures m != Patch ==> (r.Success? <==> titlePk in db.titles && !HasReviewBy(db.reviews, titlePk, caller))
    ensures m != Patch && titlePk !in db.titles ==> r == Failure(NotFound)
    ensures m != Patch && titlePk in db.titles && HasReviewBy(db.reviews, titlePk, caller) ==>
              r == Failure(Invalid(map[NonFieldErrors := AlreadyReviewedMessage]))
  {
    if m == Patch then Success(data)
    else if titlePk !in db.titles then Failure(NotFound)
    else if HasReviewBy(db.reviews, titlePk, caller) then Failure(Invalid(map[NonFieldErrors := AlreadyReviewedMessage]))
    else Success(data)
  }

  /** The check applies to PUT as well: the author of a review can never replace it with a
      PUT, because their own review is the one the check finds. */
  lemma PutByAuthorRejected(db: Db, rv: nat, data: ReviewData)
    requires rv in db.reviews && db.reviews[rv].title in db.titles
    ensures ValidateReview(Put, db, db.reviews[rv].title, db.reviews[rv].author, data)
            == Failure(Invalid(map[NonFieldErrors := AlreadyReviewedMessage]))
  {
    assert HasReviewBy(db.reviews, db.reviews[rv].title, db.reviews[rv].author);
  }

  /** Inserting, under a newPk key, a review by the caller of a title that passed the check
      keeps at most one review per (title, author). */
  lemma ValidatedReviewKeepsOnePerPair(m: Method, db: Db, titlePk: nat, caller: nat, data: ReviewData, newPk: nat)
    requires OneReviewPerPair(db.reviews) && newPk !in db.reviews
    requires m != Patch && ValidateReview(m, db, titlePk, caller, data).Success?
    ensures OneReviewPerPair(db.reviews[newPk := Review(titlePk, caller, data.text, data.score)])
  {
    var reviews := db.reviews[newPk := Review(titlePk, caller, data.text, data.score)];
    forall a, b | a in reviews && b in reviews && reviews[a].title == reviews[b].title && reviews[a].author == reviews[b].author
      ensures a == b
    {
      if a == newPk && b != newPk {
        assert db.reviews[b].title == titlePk && db.reviews[b].author == caller;
        assert HasReviewBy(db.reviews, titlePk, caller);
      }
    }
  }

  /** CommentSerializer: the text is required and may not be blank. */
  function CommentFields(text: Option<string>): (r: Result<string, Failure>)
    ensures r.Success? <==> text.Some? && Trim(text.value) != "" && '\0' !in Trim(text.value)
    ensures r.Success? ==> r.value == Trim(text.value)
    ensures r.Failure? ==> r.error.Invalid? && r.error.errors.Keys == {"text"}
  {
    var e := TextError(text);
    if e.Some? then Failure(Invalid(map["text" := e.value])) else Success(Trim(text.value))
  }
}

=== FILE: validators.dfy ===
/** The year validator of a title. The current calendar year comes from the clock in the
    running system; here it is a parameter. */
module Validators {
  import opened Wrappers

  const FutureYearMessage := "Year of title cannot be more than current year!"

  /** Passes or raises a validation error; it has no other effect. */
  function ValidateYear(value: int, currentYear: int): (r: Outcome<string>)
    ensures r.Fail? ==> r.error == FutureYearMessage
  {
    if value > currentYear then Fail(FutureYearMessage) else Pass
  }

  /** Rejected exactly when the year lies in the future. */
  lemma RejectsExactlyFutureYears(value: int, currentYear: int)
    ensures ValidateYear(value, currentYear).Fail? <==> value > currentYear
    ensures ValidateYear(value, currentYear).Pass? <==> value <= currentYear
  {
  }

  /** The bound is inclusive: the current year itself is accepted. */
  lemma CurrentYearAccepted(currentYear: int)
    ensures ValidateYear(currentYear, currentYear) == Pass
    ensures ValidateYear(currentYear + 1, currentYear) == Fail(FutureYearMessage)
  {
  }

  /** Accepted years are closed downwards, and stay accepted as the clock moves on. */
  lemma AcceptedYearsDownwardClosed(value: int, earlier: int, currentYear: int, later: int)
    requires ValidateYear(value, currentYear).Pass?
    requires earlier <= value && currentYear <= later
    ensures ValidateYear(earlier, currentYear).Pass?
    ensures ValidateYear(value, later).Pass?
  {
  }
}

=== FILE: views.dfy ===
/** The views: registration and token exchange over the user table, the review and comment
    endpoints scoped under their parent, the self-service profile update, and the choice of
    title serializer. Each endpoint is a function from the store (and the request) to the new
    store and the reply; class Api holds the tables and performs the writes step by step. */
module Views {
  import opened Wrappers
  import opened Models
  import opened Permissions
  import opened Responses
  import opened Serializers

  // ---------------------------------------------------------------------------------
  // The ORM's `get`

  /** The outcome of an ORM `get` over the rows its filter selects. */
  datatype Lookup = NoMatch | Match(pk: nat) | Ambiguous

  /** The only member of a one-element set. */
  ghost function TheOnly(s: set<nat>): (x: nat)
    requires |s| == 1
    ensures s == {x}
  {
    var x :| x in s;
    assert |s - {x}| == 0;
    x
  }

  /** `get` succeeds on exactly one row; none raises DoesNotExist, several raise
      MultipleObjectsReturned. */
  ghost function OrmGet(matches: set<nat>): (r: Lookup)
    ensures r.NoMatch? <==> matches == {}
    ensures r.Match? <==> |matches| == 1
    ensures r.Match? ==> matches == {r.pk}
    ensures r.Ambiguous? <==> |matches| > 1
  {
    if matches == {} then NoMatch
    else if |matches| == 1 then Match(TheOnly(matches))
    else Ambiguous
  }

  /** A filter that selects one row and nothing else finds exactly that row. */
  lemma OrmGetOfUniqueRow(matches: set<nat>, pk: nat)
    requires pk in matches && forall other :: other in matches ==> other == pk
    ensures OrmGet(matches) == Match(pk)
  {
    assert matches == {pk};
  }

  // ---------------------------------------------------------------------------------
  // Registration: create_user

  const ActivationText := "Your activation code is "

  /** A message handed to the mail transport. */
  datatype Mail = Mail(recipient: string, body: string)

  /** A uuid4().hex value: 32 lower-case hexadecimal digits. */
  predicate IsHexCode(code: string)
  {
    |code| == 32 && forall i :: 0 <= i < |code| ==> '0' <= code[i] <= '9' || 'a' <= code[i] <= 'f'
  }

  function UsersWithEmail(users: map<nat, User>, email: string): set<nat>
  {
    set pk | pk in users && users[pk].email == email
  }

  /** create_user once the email is validated: get_or_create the user by email (inserting a
      row that has only the email when there is none, under the key `newPk` the database
      assigns), then store username = email and the new code. Writes are not in one
      transaction: when the rename is refused the inserted row stays. */
  ghost function Register(users: map<nat, User>, email: string, code: string, newPk: nat): (r: (map<nat, User>, Outcome<Failure>))
    requires newPk !in users
    ensures users.Keys <= r.0.Keys <= users.Keys + {newPk}
    ensures r.1.Fail? ==> r.1.error == MultipleObjectsReturned || r.1.error == IntegrityError
    ensures r.1 == Fail(MultipleObjectsReturned) ==> r.0 == users
  {
    match OrmGet(UsersWithEmail(users, email))
    case Ambiguous => (users, Fail(MultipleObjectsReturned))
    case Match(pk) => Rename(users, pk, email, code)
    case NoMatch =>
      if UsernameTaken(users, None, "") then (users, Fail(IntegrityError))
      else Rename(users[newPk := NewUser(email)], newPk, email, code)
  }

  /** A successful registration leaves exactly one user with the email, and that user's
      username is the email and its code the new one. */
  lemma RegisterBindsCode(users: map<nat, User>, email: string, code: string, newPk: nat)
    requires newPk !in users && Register(users, email, code, newPk).1.Pass?
    ensures var after := Register(users, email, code, newPk).0;
            exists pk :: pk in after && UsersWithEmail(after, email) == {pk} &&
                         after[pk].username == email && after[pk].confirmationCode == code
  {
    var after := Register(users, email, code, newPk).0;
    match OrmGet(UsersWithEmail(users, email))
    case Ambiguous =>
    case Match(pk) =>
      assert UsersWithEmail(after, email) == UsersWithEmail(users, email) == {pk};
    case NoMatch =>
      var added := users[newPk := NewUser(email)];
      assert UsersWithEmail(added, email) == {newPk};
      assert UsersWithEmail(after, email) == {newPk};
  }

  /** Registration touches no user with another email, and it never grants a privilege: an
      existing user keeps their role and superuser flag, a new one gets the plain role. */
  lemma RegisterKeepsOtherUsers(users: map<nat, User>, email: string, code: string, newPk: nat)
    requires newPk !in users
    ensures var after := Register(users, email, code, newPk).0;
            && (forall pk :: pk in users && users[pk].email != email ==> after[pk] == users[pk])
            && (forall pk :: pk in after ==> after[pk].role == (if pk in users then users[pk].role else Regular))
            && (forall pk :: pk in after ==> after[pk].isSuperuser == (pk in users && users[pk].isSuperuser))
  {
    match OrmGet(UsersWithEmail(users, email))
    case Ambiguous =>
    case Match(pk) =>
      assert pk in UsersWithEmail(users, email);
    case NoMatch =>
  }

  /** Registration keeps usernames and non-blank emails unique. */
  lemma RegisterKeepsUniqueness(users: map<nat, User>, email: string, code: string, newPk: nat)
    requires newPk !in users
    ensures UsernamesUnique(users) ==> UsernamesUnique(Register(users, email, code, newPk).0)
    ensures EmailsUnique(users) ==> EmailsUnique(Register(users, email, code, newPk).0)
  {
    var after := Register(users, email, code, newPk).0;
    match OrmGet(UsersWithEmail(users, email))
    case Ambiguous =>
    case Match(pk) =>
      assert pk in UsersWithEmail(users, email);
    case NoMatch =>
      if !UsernameTaken(users, None, "") {
        forall a | a in users
          ensures users[a].email != email
        {
          assert a !in UsersWithEmail(users, email);
        }
      }
  }

  /** With exactly one user holding the email, registration renames that user. */
  lemma RegisterExisting(users: map<nat, User>, email: string, code: string, newPk: nat, pk: nat)
    requires newPk !in users && pk in users
    requires UsersWithEmail(users, email) == {pk}
    ensures Register(users, email, code, newPk) == Rename(users, pk, email, code)
  {
    assert OrmGet(UsersWithEmail(users, email)) == Match(pk);
  }

  /** With no user holding the email and no blank username, registration inserts a row and
      renames it. */
  lemma RegisterInserting(users: map<nat, User>, email: string, code: string, newPk: nat)
    requires newPk !in users && UsersWithEmail(users, email) == {} && !UsernameTaken(users, None, "")
    ensures Register(users, email, code, newPk) == Rename(users[newPk := NewUser(email)], newPk, email, code)
  {
  }

  /** As written, a registration whose rename is refused (another user already has the email
      as username) keeps the row it inserted, with a blank username and a blank code. */
  lemma FailedRenameLeavesBlankRow(users: map<nat, User>, email: string, code: string, newPk: nat)
    requires newPk !in users && UsersWithEmail(users, email) == {} && !UsernameTaken(users, None, "")
    requires UsernameTaken(users, None, email)
    ensures var r := Register(users, email, code, newPk);
            r.1 == Fail(IntegrityError) && newPk in r.0 &&
            r.0[newPk].username == "" && r.0[newPk].confirmationCode == "" && r.0[newPk].email == email
  {
    RegisterInserting(users, email, code, newPk);
    var pk :| pk in users && users[pk].username == email;
    assert UsernameTaken(users[newPk := NewUser(email)], Some(newPk), email) by {
      assert pk != newPk;
    }
  }

  /** As written, the row a refused rename leaves behind opens with a blank email and a blank
      code: get_token looks the user up by username, which is blank. */
  lemma OrphanRowOpensWithBlankCredentials(users: map<nat, User>, email: string, code: string, newPk: nat)
    requires newPk !in users && UsersWithEmail(users, email) == {} && !UsernameTaken(users, None, "")
    requires UsernamesUnique(users) && UsernameTaken(users, None, email)
    ensures GetTokenAsWritten(Register(users, email, code, newPk).0, Some(""), Some("")) == Issued(newPk)
  {
    var after := Register(users, email, code, newPk).0;
    FailedRenameLeavesBlankRow(users, email, code, newPk);
    RegisterKeepsUniqueness(users, email, code, newPk);
    BlankCodeIssuesToken(after, newPk);
  }

  /** As written, the same leftover row blocks every later registration of an email nobody
      has: the row inserted for it would have a blank username too, which the unique column
      refuses. create_user answers 500 from then on. */
  lemma OrphanRowBlocksRegistration(users: map<nat, User>, email: string, code: string, newPk: nat,
                                    other: string, otherCode: string, otherPk: nat)
    requires newPk !in users && UsersWithEmail(users, email) == {} && !UsernameTaken(users, None, "")
    requires UsernameTaken(users, None, email)
    requires otherPk !in Register(users, email, code, newPk).0
    requires UsersWithEmail(Register(users, email, code, newPk).0, other) == {}
    ensures var after := Register(users, email, code, newPk).0;
            Register(after, other, otherCode, otherPk) == (after, Fail(IntegrityError))
  {
    var after := Register(users, email, code, newPk).0;
    FailedRenameLeavesBlankRow(users, email, code, newPk);
    assert UsernameTaken(after, None, "");
    assert OrmGet(UsersWithEmail(after, other)) == NoMatch;
  }

  /** create_user's writes in one transaction (`transaction.atomic`): a refused save rolls the
      inserted row back, so a failed registration writes nothing. A success writes what the
      registration as written writes. */
  ghost function RegisterAtomic(users: map<nat, User>, email: string, code: string, newPk: nat): (r: (map<nat, User>, Outcome<Failure>))
    requires newPk !in users
    ensures r.1 == Register(users, email, code, newPk).1
    ensures r.1.Fail? ==> r.0 == users
    ensures r.1.Pass? ==> r.0 == Register(users, email, code, newPk).0
  {
    var (saved, outcome) := Register(users, email, code, newPk);
    if outcome.Fail? then (users, outcome) else (saved, outcome)
  }

  /** In one transaction, registering a non-blank email never leaves a blank username: a
      store without one keeps having none, whether the registration passes or fails. */
  lemma AtomicRegistrationLeavesNoBlankUsername(users: map<nat, User>, email: string, code: string, newPk: nat)
    requires newPk !in users && email != "" && !UsernameTaken(users, None, "")
    ensures !UsernameTaken(RegisterAtomic(users, email, code, newPk).0, None, "")
  {
    var after := RegisterAtomic(users, email, code, newPk).0;
    match OrmGet(UsersWithEmail(users, email))
    case Ambiguous =>
    case Match(pk) =>
      assert pk in UsersWithEmail(users, email);
    case NoMatch =>
  }

  /** In one transaction, a refused registration does not block the next one: an email
      nobody has, whose text is nobody's username, still registers. */
  lemma AtomicFailureBlocksNothing(users: map<nat, User>, email: string, code: string, newPk: nat,
                                   other: string, otherCode: string, otherPk: nat)
    requires newPk !in users && !UsernameTaken(users, None, "")
    requires RegisterAtomic(users, email, code, newPk).1.Fail?
    requires otherPk !in users && UsersWithEmail(users, other) == {} && !UsernameTaken(users, None, other)
    ensures RegisterAtomic(RegisterAtomic(users, email, code, newPk).0, other, otherCode, otherPk).1 == Pass
  {
    RegisterInserting(users, other, otherCode, otherPk);
    assert !UsernameTaken(users[otherPk := NewUser(other)], Some(otherPk), other);
  }

  /** Sets username and code of row `pk` and saves it; the unique username column refuses
      the save when another row already holds that username. */
  function Rename(users: map<nat, User>, pk: nat, email: string, code: string): (r: (map<nat, User>, Outcome<Failure>))
    requires pk in users
    ensures r.1.Fail? ==> r == (users, Fail(IntegrityError))
    ensures r.1.Pass? <==> !UsernameTaken(users, Some(pk), email)
    ensures r.1.Pass? ==> r.0 == users[pk := users[pk].(username := email, confirmationCode := code)]
    ensures r.1.Pass? ==> UsersWithEmail(r.0, email) == UsersWithEmail(users, email)
  {
    if UsernameTaken(users, Some(pk), email) then (users, Fail(IntegrityError))
    else (users[pk := users[pk].(username := email, confirmationCode := code)], Pass)
  }

  /** `get` on the user table filtered by email, computed. */
  method GetUserByEmail(users: map<nat, User>, email: string) returns (r: Lookup)
    ensures r == OrmGet(UsersWithEmail(users, email))
  {
    var found := set pk | pk in users && users[pk].email == email;
    assert found == UsersWithEmail(users, email);
    if |found| == 0 {
      return NoMatch;
    } else if |found| > 1 {
      return Ambiguous;
    }
    var pk :| pk in found;
    assert found == {TheOnly(found)};
    r := Match(pk);
  }

  /** The writes of create_user on the user table whose next key is `next`: get_or_create
      by email, then the username and the code saved on the row. */
  method RegisterRows(users: map<nat, User>, next: nat, address: string, code: string)
    returns (table: map<nat, User>, newNext: nat, outcome: Outcome<Failure>)
    requires forall pk :: pk in users ==> pk < next
    ensures (table, outcome) == Register(users, address, code, next)
    ensures newNext == (if next in table then next + 1 else next)
    ensures forall pk :: pk in table ==> pk < newNext
  {
    table, newNext := users, next;
    var lookup := GetUserByEmail(users, address);
    var pk: nat;
    match lookup {
      case Ambiguous =>
        return users, next, Fail(MultipleObjectsReturned);
      case Match(existing) =>
        RegisterExisting(users, address, code, next, existing);
        pk := existing;
      case NoMatch =>
        if exists other :: other in users && users[other].username == "" {
          return users, next, Fail(IntegrityError);
        }
        RegisterInserting(users, address, code, next);
        pk := next;
        table := users[pk := NewUser(address)];
        newNext := next + 1;
    }
    table, outcome := Rename(table, pk, address, code).0, Rename(table, pk, address, code).1;
  }

  /** What create_user answers and sends for a request. */
  datatype Registration = Registration(users: map<nat, User>, status: int, sent: seq<Mail>)

  /** create_user: 400 for an invalid email; otherwise the registration, then the mail with
      the code, then 201. An exception from the store or from the mail transport is a 500,
      and what was saved before it stays saved. */
  ghost function CreateUserStep(users: map<nat, User>, email: Option<string>, code: string, newPk: nat, mailDelivers: bool): (r: Registration)
    requires newPk !in users
    ensures r.status == BadRequest <==> UserCreationFields(email).Failure?
    ensures r.status == BadRequest ==> r.users == users
    ensures r.status in {Created, BadRequest, ServerError}
    ensures r.status == Created ==> r.sent == [Mail(Trim(email.value), ActivationText + code)]
    ensures r.status != Created ==> r.sent == []
    ensures UserCreationFields(email).Success? ==>
              var (saved, outcome) := RegisterAtomic(users, Trim(email.value), code, newPk);
              r.users == saved && (r.status == Created <==> outcome.Pass? && mailDelivers)
  {
    match UserCreationFields(email)
    case Failure(f) => Registration(users, StatusOf(f), [])
    case Success(address) =>
      var (saved, outcome) := RegisterAtomic(users, address, code, newPk);
      if outcome.Fail? then Registration(saved, StatusOf(outcome.error), [])
      else if !mailDelivers then Registration(saved, StatusOf(MailFailure), [])
      else Registration(saved, Created, [Mail(address, ActivationText + code)])
  }

  /** A 201 means the mail went out and the trimmed email now names exactly one user, who
      holds the mailed code. */
  lemma CreatedUserHoldsCode(users: map<nat, User>, email: Option<string>, code: string, newPk: nat, mailDelivers: bool)
    requires newPk !in users && CreateUserStep(users, email, code, newPk, mailDelivers).status == Created
    ensures var r := CreateUserStep(users, email, code, newPk, mailDelivers);
            mailDelivers && email.Some? && r.sent == [Mail(Trim(email.value), ActivationText + code)] &&
            exists pk :: pk in r.users && UsersWithEmail(r.users, Trim(email.value)) == {pk} &&
                         r.users[pk].username == Trim(email.value) && r.users[pk].confirmationCode == code
  {
    RegisterBindsCode(users, Trim(email.value), code, newPk);
  }

  /** Registering an email that already has a user reuses that user: no row is added and no
      other user changes. */
  lemma RegisterReusesExistingUser(users: map<nat, User>, email: string, code: string, newPk: nat, pk: nat)
    requires newPk !in users && EmailsUnique(users)
    requires pk in users && users[pk].email == email && email != ""
    requires Register(users, email, code, newPk).1.Pass?
    ensures var after := Register(users, email, code, newPk).0;
            after.Keys == users.Keys && after[pk].email == email &&
            after[pk].username == email && after[pk].confirmationCode == code &&
            forall other :: other in users && other != pk ==> after[other] == users[other]
  {
    assert UsersWithEmail(users, email) == {pk};
    RegisterExisting(users, email, code, newPk, pk);
  }

  // ---------------------------------------------------------------------------------
  // Token exchange: get_token

  const NoSuchUserText := "User with this email and confirmation code not found"

  /** The reply of get_token. */
  datatype TokenReply =
    /** 400 from the serializer, keyed by field. */
    | FieldErrors(errors: map<string, string>)
    /** 400 with an explanation and an empty token. */
    | NoSuchUser(response: string, token: string)
    /** 200 with a signed access token bound to this user. */
    | Issued(holder: nat)
    /** 500: MultipleObjectsReturned escaped the view. */
    | Crashed
  {
    function Status(): int
    {
      match this
      case FieldErrors(_) => BadRequest
      case NoSuchUser(_, _) => BadRequest
      case Issued(_) => Ok
      case Crashed => ServerError
    }
  }

  function UsersWithCredentials(users: map<nat, User>, email: string, code: string): set<nat>
  {
    set pk | pk in users && users[pk].username == email && users[pk].confirmationCode == code
  }

  /** get_token as written: User.objects.get(username=email, confirmation_code=code), on the
      trimmed values. Looking a user up changes nothing, so this is a function of the user
      table. */
  ghost function GetTokenAsWritten(users: map<nat, User>, email: Option<string>, code: Option<string>): (r: TokenReply)
    ensures r.FieldErrors? <==> UserTokenFields(email, code).Failure?
    ensures r.FieldErrors? ==> r.errors == UserTokenFields(email, code).error.errors
    ensures r.Issued? ==>
              && r.holder in users && email.Some? && code.Some?
              && Trim(email.value) == users[r.holder].username && Trim(code.value) == users[r.holder].confirmationCode
    ensures r.NoSuchUser? ==> r == NoSuchUser(NoSuchUserText, "") && r.Status() == BadRequest
    ensures UsernamesUnique(users) ==> !r.Crashed?
    ensures UsernamesUnique(users) && UserTokenFields(email, code).Success? ==>
              (r.Issued? <==> exists pk :: pk in users && Trim(email.value) == users[pk].username && Trim(code.value) == users[pk].confirmationCode)
  {
    match UserTokenFields(email, code)
    case Failure(f) => FieldErrors(f.errors)
    case Success((address, given)) =>
      var matches := UsersWithCredentials(users, address, given);
      assert UsernamesUnique(users) ==> forall a, b :: a in matches && b in matches ==> a == b;
      match OrmGet(matches)
      case NoMatch =>
        assert forall pk :: pk in users && users[pk].username == address && users[pk].confirmationCode == given ==> pk in matches;
        NoSuchUser(NoSuchUserText, "")
      case Match(pk) => Issued(pk)
      case Ambiguous =>
        assert !UsernamesUnique(users) by {
          var a :| a in matches;
          assert |matches - {a}| > 0;
          var b :| b in matches - {a};
        }
        Crashed
  }

  /** As written, a blank code is accepted, and it is the code of every user that never
      registered through create_user (a user the administrators created, say): posting such a
      user's username as the email with a blank code yields a token for them. A username the
      serializers saved is already trimmed. */
  lemma BlankCodeIssuesToken(users: map<nat, User>, pk: nat)
    requires UsernamesUnique(users) && pk in users
    requires users[pk].confirmationCode == "" && FitsColumn(users[pk].username, EmailMaxLength)
    requires Trim(users[pk].username) == users[pk].username
    ensures GetTokenAsWritten(users, Some(users[pk].username), Some("")) == Issued(pk)
  {
    var matches := UsersWithCredentials(users, users[pk].username, "");
    OrmGetOfUniqueRow(matches, pk);
  }

  /** get_token with a code that is blank once trimmed refused: only a code that registration
      issued opens an account. Otherwise it answers as written. */
  ghost function GetToken(users: map<nat, User>, email: Option<string>, code: Option<string>): (r: TokenReply)
    ensures r.Issued? ==> code.Some? && Trim(code.value) != ""
    ensures code.None? || Trim(code.value) != "" ==> r == GetTokenAsWritten(users, email, code)
    ensures r.FieldErrors? <==> UserTokenFields(email, code).Failure?
    ensures r.FieldErrors? ==> r.errors == UserTokenFields(email, code).error.errors
    ensures r.Issued? ==>
              && r.holder in users && email.Some? && code.Some?
              && Trim(email.value) == users[r.holder].username && Trim(code.value) == users[r.holder].confirmationCode
  {
    if code.Some? && Trim(code.value) == "" && UserTokenFields(email, code).Success? then NoSuchUser(NoSuchUserText, "")
    else GetTokenAsWritten(users, email, code)
  }

  /** A user's non-blank code, with their username as the email, yields a token for them,
      and no code that does not trim to it does: such a code is answered as an unknown user
      whenever it passes the code field. */
  lemma CodeOpensOnlyItsAccount(users: map<nat, User>, pk: nat, other: string)
    requires UsernamesUnique(users) && pk in users
    requires Trim(users[pk].username) == users[pk].username && Trim(users[pk].confirmationCode) == users[pk].confirmationCode
    requires users[pk].confirmationCode != "" && Trim(other) != users[pk].confirmationCode
    requires FitsColumn(users[pk].username, EmailMaxLength)
    requires FitsColumn(users[pk].confirmationCode, CodeMaxLength)
    ensures GetToken(users, Some(users[pk].username), Some(users[pk].confirmationCode)) == Issued(pk)
    ensures !GetToken(users, Some(users[pk].username), Some(other)).Issued?
    ensures FitsColumn(Trim(other), CodeMaxLength) ==> GetToken(users, Some(users[pk].username), Some(other)).NoSuchUser?
  {
    var email := users[pk].username;
    OrmGetOfUniqueRow(UsersWithCredentials(users, email, users[pk].confirmationCode), pk);
    assert UsersWithCredentials(users, email, Trim(other)) == {};
  }

  /** A uuid4().hex code has no surrounding whitespace to trim, and no null character. */
  lemma HexCodeIsTrimmed(code: string)
    requires IsHexCode(code)
    ensures Trim(code) == code && FitsColumn(code, CodeMaxLength)
  {
    TrimKeepsTrimmed(code);
  }

  /** After a successful registration of a (trimmed) email, the new code opens the registered
      account, and no other code does, in particular not the one an earlier registration
      issued. */
  lemma RegisteredCodeIsTheOnlyKey(users: map<nat, User>, email: string, code: string, newPk: nat, other: string)
    requires UsernamesUnique(users) && newPk !in users
    requires FitsColumn(email, EmailMaxLength) && Trim(email) == email && IsHexCode(code)
    requires Trim(other) != code
    requires Register(users, email, code, newPk).1.Pass?
    ensures var after := Register(users, email, code, newPk).0;
            && GetToken(after, Some(email), Some(code)).Issued?
            && after[GetToken(after, Some(email), Some(code)).holder].email == email
            && !GetToken(after, Some(email), Some(other)).Issued?
            && (FitsColumn(Trim(other), CodeMaxLength) ==> GetToken(after, Some(email), Some(other)).NoSuchUser?)
  {
    var after := Register(users, email, code, newPk).0;
    RegisterBindsCode(users, email, code, newPk);
    RegisterKeepsUniqueness(users, email, code, newPk);
    var pk :| pk in after && UsersWithEmail(after, email) == {pk} &&
              after[pk].username == email && after[pk].confirmationCode == code;
    assert pk in UsersWithEmail(after, email);
    assert |code| == 32;
    HexCodeIsTrimmed(code);
    CodeOpensOnlyItsAccount(after, pk, other);
  }

  /** Registering the same email twice rotates the code: the first code stops working and
      the second one works. */
  lemma RegisteringTwiceRotatesCode(users: map<nat, User>, email: string, first: string, second: string, pk1: nat, pk2: nat)
    requires UsernamesUnique(users) && pk1 !in users
    requires FitsColumn(email, EmailMaxLength) && Trim(email) == email
    requires IsHexCode(first) && IsHexCode(second) && first != second
    requires Register(users, email, first, pk1).1.Pass?
    requires pk2 !in Register(users, email, first, pk1).0
    requires Register(Register(users, email, first, pk1).0, email, second, pk2).1.Pass?
    ensures var after := Register(Register(users, email, first, pk1).0, email, second, pk2).0;
            GetToken(after, Some(email), Some(first)).NoSuchUser? && GetToken(after, Some(email), Some(second)).Issued?
  {
    var middle := Register(users, email, first, pk1).0;
    RegisterKeepsUniqueness(users, email, first, pk1);
    HexCodeIsTrimmed(first);
    HexCodeIsTrimmed(second);
    RegisteredCodeIsTheOnlyKey(middle, email, second, pk2, first);
  }

  // ---------------------------------------------------------------------------------
  // Reviews and comments, scoped under their parent

  /** ReviewViewSet.get_queryset: 404 without the title, else exactly its reviews. */
  function ReviewQueryset(db: Db, titlePk: nat): (r: Result<set<nat>, Failure>)
    ensures r.Failure? <==> titlePk !in db.titles
    ensures r.Failure? ==> r.error == NotFound
    ensures r.Success? ==> forall pk :: pk in r.value <==> pk in db.reviews && db.reviews[pk].title == titlePk
  {
    if titlePk !in db.titles then Failure(NotFound) else Success(ReviewsOfTitle(db, titlePk))
  }

  /** CommentViewSet.get_queryset: 404 unless the review exists and belongs to the path's
      title, else exactly the comments of that review. */
  function CommentQueryset(db: Db, titlePk: nat, reviewPk: nat): (r: Result<set<nat>, Failure>)
    ensures r.Failure? <==> reviewPk !in db.reviews || db.reviews[reviewPk].title != titlePk
    ensures r.Failure? ==> r.error == NotFound
    ensures r.Success? ==> forall pk :: pk in r.value <==> pk in db.comments && db.comments[pk].review == reviewPk
  {
    if reviewPk !in db.reviews || db.reviews[reviewPk].title != titlePk then Failure(NotFound)
    else Success(set pk | pk in db.comments && db.comments[pk].review == reviewPk)
  }

  /** Every comment listed under a path hangs, through its review, from the path's title. */
  lemma CommentsListedBelongToPathTitle(db: Db, titlePk: nat, reviewPk: nat, pk: nat)
    requires CommentQueryset(db, titlePk, reviewPk).Success?
    requires pk in CommentQueryset(db, titlePk, reviewPk).value
    ensures pk in db.comments && db.comments[pk].review in db.reviews
    ensures db.reviews[db.comments[pk].review].title == titlePk
  {
  }

  /** ReviewViewSet.create: field validation, then ReviewSerializer.validate for a POST, then
      perform_create, which looks the title up again and saves the review with the caller as
      author and the path's title. */
  function CreateReviewStep(db: Db, caller: nat, titlePk: nat, input: ReviewInput, newPk: nat): (r: (Db, Result<nat, Failure>))
    ensures r.1.Failure? ==> r.0 == db && (r.1.error.Invalid? || r.1.error == NotFound)
    ensures r.1.Success? <==>
              ReviewFields(input).Success? && titlePk in db.titles && !HasReviewBy(db.reviews, titlePk, caller)
    ensures r.1.Success? ==>
              r.1.value == newPk &&
              r.0 == db.(reviews := db.reviews[newPk := Review(titlePk, caller, Trim(input.text.value), input.score.value)])
    ensures ReviewFields(input).Failure? ==> r == (db, Failure(ReviewFields(input).error))
    ensures ReviewFields(input).Success? && titlePk !in db.titles ==> r.1 == Failure(NotFound)
    ensures ReviewFields(input).Success? && titlePk in db.titles && HasReviewBy(db.reviews, titlePk, caller) ==>
              r.1 == Failure(Invalid(map[NonFieldErrors := AlreadyReviewedMessage]))
  {
    match ReviewFields(input)
    case Failure(f) => (db, Failure(f))
    case Success(data) =>
      match ValidateReview(Post, db, titlePk, caller, data)
      case Failure(f) => (db, Failure(f))
      case Success(checked) =>
        if titlePk !in db.titles then (db, Failure(NotFound))
        else (db.(reviews := db.reviews[newPk := Review(titlePk, caller, checked.text, checked.score)]), Success(newPk))
  }

  /** A review created through the API keeps every review invariant of the store: one review
      per (title, author), scores in range, foreign keys that resolve. */
  lemma CreateReviewKeepsInvariants(db: Db, caller: nat, titlePk: nat, input: ReviewInput, newPk: nat)
    requires Linked(db) && OneReviewPerPair(db.reviews) && ScoresInRange(db.reviews)
    requires caller in db.users && newPk !in db.reviews
    ensures var after := CreateReviewStep(db, caller, titlePk, input, newPk).0;
            Linked(after) && OneReviewPerPair(after.reviews) && ScoresInRange(after.reviews)
  {
    match ReviewFields(input)
    case Failure(_) =>
    case Success(data) =>
      if ValidateReview(Post, db, titlePk, caller, data).Success? {
        ValidatedReviewKeepsOnePerPair(Post, db, titlePk, caller, data, newPk);
      }
  }

  /** A second review of the same title by the same author is refused. */
  lemma SecondReviewRefused(db: Db, caller: nat, titlePk: nat, first: ReviewInput, second: ReviewInput, newPk: nat, nextPk: nat)
    requires CreateReviewStep(db, caller, titlePk, first, newPk).1.Success?
    requires ReviewFields(second).Success?
    ensures CreateReviewStep(CreateReviewStep(db, caller, titlePk, first, newPk).0, caller, titlePk, second, nextPk).1
            == Failure(Invalid(map[NonFieldErrors := AlreadyReviewedMessage]))
  {
    var after := CreateReviewStep(db, caller, titlePk, first, newPk).0;
    assert after.reviews[newPk].title == titlePk && after.reviews[newPk].author == caller;
    assert HasReviewBy(after.reviews, titlePk, caller);
  }

  /** CommentViewSet.create: field validation, then perform_create, which needs the review to
      exist under the path's title and saves the comment with the caller as author. */
  function CreateCommentStep(db: Db, caller: nat, titlePk: nat, reviewPk: nat, text: Option<string>, newPk: nat): (r: (Db, Result<nat, Failure>))
    ensures r.1.Failure? ==> r.0 == db && (r.1.error.Invalid? || r.1.error == NotFound)
    ensures r.1.Success? <==>
              CommentFields(text).Success? && reviewPk in db.reviews && db.reviews[reviewPk].title == titlePk
    ensures r.1.Success? ==>
              r.1.value == newPk && r.0 == db.(comments := db.comments[newPk := Comment(reviewPk, caller, Trim(text.value))])
    ensures CommentFields(text).Failure? ==> r == (db, Failure(CommentFields(text).error))
    ensures CommentFields(text).Success? && (reviewPk !in db.reviews || db.reviews[reviewPk].title != titlePk) ==>
              r.1 == Failure(NotFound)
  {
    match CommentFields(text)
    case Failure(f) => (db, Failure(f))
    case Success(body) =>
      if reviewPk !in db.reviews || db.reviews[reviewPk].title != titlePk then (db, Failure(NotFound))
      else (db.(comments := db.comments[newPk := Comment(reviewPk, caller, body)]), Success(newPk))
  }

  /** A created comment is listed under its path, and the store stays linked. */
  lemma CreateCommentIsListed(db: Db, caller: nat, titlePk: nat, reviewPk: nat, text: Option<string>, newPk: nat)
    requires Linked(db) && caller in db.users && newPk !in db.comments
    requires CreateCommentStep(db, caller, titlePk, reviewPk, text, newPk).1.Success?
    ensures var after := CreateCommentStep(db, caller, titlePk, reviewPk, text, newPk).0;
            Linked(after) &&
            CommentQueryset(after, titlePk, reviewPk).Success? &&
            CommentQueryset(after, titlePk, reviewPk).value == CommentQueryset(db, titlePk, reviewPk).value + {newPk}
  {
    var after := CreateCommentStep(db, caller, titlePk, reviewPk, text, newPk).0;
    assert CommentQueryset(after, titlePk, reviewPk).value == CommentQueryset(db, titlePk, reviewPk).value + {newPk};
  }

  // ---------------------------------------------------------------------------------
  // Self-service profile: UserViewSet.patch_me

  /** A partial update of a row by validated fields: what is given replaces, the rest stays. */
  function ApplyUserFields(u: User, f: UserFields): (v: User)
    ensures v.username == (if f.username.Some? then f.username.value else u.username)
    ensures v.email == (if f.email.Some? then f.email.value else u.email)
    ensures v.firstName == (if f.firstName.Some? then f.firstName.value else u.firstName)
    ensures v.lastName == (if f.lastName.Some? then f.lastName.value else u.lastName)
    ensures v.bio == (if f.bio.Some? then f.bio.value else u.bio)
    ensures v.role == (if f.role.Some? then f.role.value else u.role)
    ensures v.isSuperuser == u.isSuperuser && v.confirmationCode == u.confirmationCode
  {
    User(
      if f.username.Some? then f.username.value else u.username,
      if f.email.Some? then f.email.value else u.email,
      if f.firstName.Some? then f.firstName.value else u.firstName,
      if f.lastName.Some? then f.lastName.value else u.lastName,
      if f.bio.Some? then f.bio.value else u.bio,
      if f.role.Some? then f.role.value else u.role,
      u.isSuperuser,
      u.confirmationCode)
  }

  /** patch_me as written: UserSerializer, partial, on the caller's own row, role included. */
  function SelfUpdateAsWritten(users: map<nat, User>, caller: nat, input: UserInput): (r: (map<nat, User>, Result<User, Failure>))
    requires caller in users
    ensures r.1.Failure? ==> r.0 == users && r.1.error.Invalid?
    ensures r.1.Success? <==> ValidateUser(users, Some(caller), input, true).Success?
    ensures r.1.Failure? ==> r.1.error == ValidateUser(users, Some(caller), input, true).error
    ensures r.1.Success? ==>
              && r.0 == users[caller := r.1.value]
              && r.1.value == ApplyUserFields(users[caller], ValidateUser(users, Some(caller), input, true).value)
    ensures r.1.Success? && input.role.Some? ==> RoleValue(r.1.value.role) == input.role.value
  {
    match ValidateUser(users, Some(caller), input, true)
    case Failure(f) => (users, Failure(f))
    case Success(fields) =>
      var updated := ApplyUserFields(users[caller], fields);
      (users[caller := updated], Success(updated))
  }

  /** As written, any user makes themself an administrator by patching their own role. */
  lemma SelfPromotion(users: map<nat, User>, caller: nat)
    requires caller in users
    ensures var r := SelfUpdateAsWritten(users, caller, UserInput(None, None, None, None, None, Some("admin")));
            r.1.Success? && r.0[caller].role == Admin && IsAdmin(r.0[caller])
  {
  }

  /** patch_me with the role read-only: a submitted role is ignored, as for any read-only
      field, so the update never changes the caller's privileges. */
  function SelfUpdate(users: map<nat, User>, caller: nat, input: UserInput): (r: (map<nat, User>, Result<User, Failure>))
    requires caller in users
    ensures r.1.Failure? ==> r.0 == users && r.1.error.Invalid?
    ensures r.1.Success? <==> ValidateUser(users, Some(caller), input.(role := None), true).Success?
    ensures r.1.Failure? ==> r.1.error == ValidateUser(users, Some(caller), input.(role := None), true).error
    ensures r.1.Success? ==>
              && r.0 == users[caller := r.1.value]
              && r.1.value == ApplyUserFields(users[caller], ValidateUser(users, Some(caller), input.(role := None), true).value)
    ensures r.1.Success? ==>
              r.1.value.role == users[caller].role && r.1.value.isSuperuser == users[caller].isSuperuser &&
              (IsAdmin(r.1.value) <==> IsAdmin(users[caller])) && (IsModerator(r.1.value) <==> IsModerator(users[caller]))
    ensures input.role.None? ==> r == SelfUpdateAsWritten(users, caller, input)
  {
    SelfUpdateAsWritten(users, caller, input.(role := None))
  }

  /** The self-service update keeps usernames and non-blank emails unique. */
  lemma SelfUpdateKeepsUniqueness(users: map<nat, User>, caller: nat, input: UserInput)
    requires caller in users && UsernamesUnique(users) && EmailsUnique(users)
    ensures UsernamesUnique(SelfUpdate(users, caller, input).0) && EmailsUnique(SelfUpdate(users, caller, input).0)
  {
    match ValidateUser(users, Some(caller), input.(role := None), true)
    case Failure(_) =>
    case Success(fields) =>
      ValidatedUserKeepsUniqueness(users, caller, input.(role := None), true, ApplyUserFields(users[caller], fields));
  }

  // ---------------------------------------------------------------------------------
  // TitleViewSet.get_serializer_class

  datatype Action = List | Retrieve | Create | Update | PartialUpdate | Destroy | Metadata

  /** Nested category and genres plus the rating, or slugs for category and genres. */
  datatype TitleSerializer = TitleRead | TitleWrite

  function TitleSerializerFor(a: Action): (s: TitleSerializer)
    ensures s == TitleRead <==> a == List || a == Retrieve
  {
    if a == List || a == Retrieve then TitleRead else TitleWrite
  }

  // ---------------------------------------------------------------------------------
  // The store

  /** The database constraints and the invariants the API maintains, over the tables and the
      primary key each table assigns next. */
  ghost predicate StoreInvariant(db: Db, nextUser: nat, nextReview: nat, nextComment: nat)
  {
    && Linked(db)
    && UsernamesUnique(db.users) && EmailsUnique(db.users)
    && ScoresInRange(db.reviews) && OneReviewPerPair(db.reviews)
    && (forall pk :: pk in db.users ==> pk < nextUser)
    && (forall pk :: pk in db.reviews ==> pk < nextReview)
    && (forall pk :: pk in db.comments ==> pk < nextComment)
  }

  /** Registration keeps the store invariant, the user counter advancing exactly when the
      new key was used. */
  lemma RegistrationKeepsInvariant(db: Db, nextUser: nat, nextReview: nat, nextComment: nat, email: string, code: string)
    requires StoreInvariant(db, nextUser, nextReview, nextComment)
    ensures var table := RegisterAtomic(db.users, email, code, nextUser).0;
            StoreInvariant(db.(users := table), if nextUser in table then nextUser + 1 else nextUser, nextReview, nextComment)
  {
    var table := RegisterAtomic(db.users, email, code, nextUser).0;
    RegisterKeepsUniqueness(db.users, email, code, nextUser);
    LinkedWithMoreUsers(db, table);
  }

  /** Creating a review keeps the store invariant, the review counter advancing exactly when
      a review was created. */
  lemma ReviewCreationKeepsInvariant(db: Db, nextUser: nat, nextReview: nat, nextComment: nat, caller: nat, titlePk: nat, input: ReviewInput)
    requires StoreInvariant(db, nextUser, nextReview, nextComment) && caller in db.users
    ensures var r := CreateReviewStep(db, caller, titlePk, input, nextReview);
            StoreInvariant(r.0, nextUser, if r.1.Success? then nextReview + 1 else nextReview, nextComment)
  {
    CreateReviewKeepsInvariants(db, caller, titlePk, input, nextReview);
  }

  /** Creating a comment keeps the store invariant, the comment counter advancing exactly
      when a comment was created. */
  lemma CommentCreationKeepsInvariant(db: Db, nextUser: nat, nextReview: nat, nextComment: nat, caller: nat, titlePk: nat, reviewPk: nat, text: Option<string>)
    requires StoreInvariant(db, nextUser, nextReview, nextComment) && caller in db.users
    ensures var r := CreateCommentStep(db, caller, titlePk, reviewPk, text, nextComment);
            StoreInvariant(r.0, nextUser, nextReview, if r.1.Success? then nextComment + 1 else nextComment)
  {
    var r := CreateCommentStep(db, caller, titlePk, reviewPk, text, nextComment);
    if r.1.Success? {
      LinkedWithNewComment(db, nextComment, r.0.comments[nextComment]);
    }
  }

  /** The tables, the primary key each table assigns next, and the mails handed to the
      transport. */
  class Api {
    var users: map<nat, User>
    var categories: map<nat, Category>
    var genres: map<nat, Genre>
    var titles: map<nat, Title>
    var reviews: map<nat, Review>
    var comments: map<nat, Comment>
    var nextUserPk: nat
    var nextReviewPk: nat
    var nextCommentPk: nat
    var outbox: seq<Mail>

    function Store(): Db
      reads this
    {
      Db(users, categories, genres, titles, reviews, comments)
    }

    /** The database constraints and the invariants the API maintains. */
    ghost predicate Valid()
      reads this
    {
      StoreInvariant(Store(), nextUserPk, nextReviewPk, nextCommentPk)
    }

    constructor ()
      ensures Valid()
      ensures Store() == Db(map[], map[], map[], map[], map[], map[]) && outbox == []
    {
      users, categories, genres, titles, reviews, comments := map[], map[], map[], map[], map[], map[];
      nextUserPk, nextReviewPk, nextCommentPk := 0, 0, 0;
      outbox := [];
    }

    /** create_user. The confirmation code and whether the mail transport delivers are the
        environment's; only the user table, its key counter and the outbox change. */
    method CreateUser(email: Option<string>, code: string, mailDelivers: bool) returns (status: int)
      requires Valid()
      modifies this
      ensures Valid()
      ensures var r := CreateUserStep(old(users), email, code, old(nextUserPk), mailDelivers);
              users == r.users && status == r.status && outbox == old(outbox) + r.sent
      ensures Store() == old(Store()).(users := users)
      ensures nextUserPk == (if old(nextUserPk) in users then old(nextUserPk) + 1 else old(nextUserPk))
      ensures nextReviewPk == old(nextReviewPk) && nextCommentPk == old(nextCommentPk)
    {
      var fields := UserCreationFields(email);
      if fields.Failure? {
        return StatusOf(fields.error);
      }
      var outcome := SaveRegistration(fields.value, code);
      if outcome.Fail? {
        return StatusOf(outcome.error);
      }
      if !mailDelivers {
        return StatusOf(MailFailure);
      }
      outbox := outbox + [Mail(fields.value, ActivationText + code)];
      status := Created;
    }

    /** The writes of create_user in one transaction: get_or_create by email, then the
        username and the code; when the save is refused nothing stays written. */
    method SaveRegistration(address: string, code: string) returns (outcome: Outcome<Failure>)
      requires Valid()
      modifies this
      ensures Valid()
      ensures (users, outcome) == RegisterAtomic(old(users), address, code, old(nextUserPk))
      ensures Store() == old(Store()).(users := users) && outbox == old(outbox)
      ensures nextUserPk == (if old(nextUserPk) in users then old(nextUserPk) + 1 else old(nextUserPk))
      ensures nextReviewPk == old(nextReviewPk) && nextCommentPk == old(nextCommentPk)
    {
      ghost var before := Store();
      ghost var key := nextUserPk;
      ghost var after := RegisterAtomic(before.users, address, code, key).0;
      RegistrationKeepsInvariant(Store(), nextUserPk, nextReviewPk, nextCommentPk, address, code);
      assert key !in before.users;
      var table, next;
      table, next, outcome := RegisterRows(users, nextUserPk, address, code);
      if outcome.Pass? {
        users, nextUserPk := table, next;
      }
      assert Store() == before.(users := after);
      assert nextUserPk == (if key in after then key + 1 else key);
    }

    /** ReviewViewSet.create by an authenticated caller. */
    method CreateReview(caller: nat, titlePk: nat, input: ReviewInput) returns (result: Result<nat, Failure>)
      requires Valid() && caller in users
      modifies this
      ensures Valid()
      ensures (Store(), result) == CreateReviewStep(old(Store()), caller, titlePk, input, old(nextReviewPk))
      ensures nextReviewPk == old(nextReviewPk) + (if result.Success? then 1 else 0)
      ensures outbox == old(outbox) && nextUserPk == old(nextUserPk) && nextCommentPk == old(nextCommentPk)
    {
      ghost var step := CreateReviewStep(Store(), caller, titlePk, input, nextReviewPk);
      ReviewCreationKeepsInvariant(Store(), nextUserPk, nextReviewPk, nextCommentPk, caller, titlePk, input);
      var fields := ReviewFields(input);
      if fields.Failure? {
        return Failure(fields.error);
      }
      var checked := ValidateReview(Post, Store(), titlePk, caller, fields.value);
      if checked.Failure? {
        return Failure(checked.error);
      }
      if titlePk !in titles {
        return Failure(NotFound);
      }
      reviews := reviews[nextReviewPk := Review(titlePk, caller, checked.value.text, checked.value.score)];
      result := Success(nextReviewPk);
      nextReviewPk := nextReviewPk + 1;
      assert Store() == step.0;
    }

    /** CommentViewSet.create by an authenticated caller. */
    method CreateComment(caller: nat, titlePk: nat, reviewPk: nat, text: Option<string>) returns (result: Result<nat, Failure>)
      requires Valid() && caller in users
      modifies this
      ensures Valid()
      ensures (Store(), result) == CreateCommentStep(old(Store()), caller, titlePk, reviewPk, text, old(nextCommentPk))
      ensures nextCommentPk == old(nextCommentPk) + (if result.Success? then 1 else 0)
      ensures outbox == old(outbox) && nextUserPk == old(nextUserPk) && nextReviewPk == old(nextReviewPk)
    {
      ghost var step := CreateCommentStep(Store(), caller, titlePk, reviewPk, text, nextCommentPk);
      CommentCreationKeepsInvariant(Store(), nextUserPk, nextReviewPk, nextCommentPk, caller, titlePk, reviewPk, text);
      var fields := CommentFields(text);
      if fields.Failure? {
        return Failure(fields.error);
      }
      if reviewPk !in reviews || reviews[reviewPk].title != titlePk {
        return Failure(NotFound);
      }
      comments := comments[nextCommentPk := Comment(reviewPk, caller, fields.value)];
      result := Success(nextCommentPk);
      nextCommentPk := nextCommentPk + 1;
      assert Store() == step.0;
    }

    /** patch_me by an authenticated caller, with the role read-only. */
    method PatchMe(caller: nat, input: UserInput) returns (result: Result<User, Failure>)
      requires Valid() && caller in users
      modifies this
      ensures Valid()
      ensures (users, result) == SelfUpdate(old(users), caller, input)
      ensures Store() == old(Store()).(users := users)
      ensures outbox == old(outbox) && nextUserPk == old(nextUserPk)
      ensures nextReviewPk == old(nextReviewPk) && nextCommentPk == old(nextCommentPk)
    {
      var checked := ValidateUser(users, Some(caller), input.(role := None), true);
      if checked.Failure? {
        return Failure(checked.error);
      }
      var updated := ApplyUserFields(users[caller], checked.value);
      SelfUpdateKeepsUniqueness(users, caller, input);
      users := users[caller := updated];
      result := Success(updated);
    }
  }
}

=== FILE: wrappers.dfy ===
/** Option, Result and the outcome of a check, shared by the other modules. */
module Wrappers {

  /** A value that may be missing: an absent request field, a null foreign key. */
  datatype Option<+T> = None | Some(value: T)

  /** The outcome of an operation that yields a value or fails. */
  datatype Result<+T, +E> = Success(value: T) | Failure(error: E)

  /** The outcome of a check that either passes or raises. */
  datatype Outcome<+E> = Pass | Fail(error: E)
}
